=== FILE: README.md ===
# QuizSnap quiz and duel core in Dafny

This project models the logic of the QuizSnap front-end: a children's quiz
application in which a generated list of questions is answered solo or in a
two-player duel over a peer-to-peer data connection. The model is functional:
every handler is a pure transition from a state and an event to a new state and
the effects the handler performs. The effects are messages sent to the peer and
calls into the sound hook.

- `types.dfy` (module `Types`): the records and closed enumerations of `types.ts`, their wire strings, and the tagged duel message.
- `decimal.dfy` (module `Decimal`): the decimal rendering that `toString()` and template interpolation perform for integers below 10^21 in magnitude, with the parse that undoes it.
- `app.dfy` (module `App`): the component state of `App.tsx` as one record, and every handler as a transition. Covered: sign-in, menus, lobby, quiz start, answer, feedback timer and message receipt.
- `screens.dfy` (module `Screens`): which events each screen offers, and the login guard over whole runs.
- `quiz_runs.dfy` (module `QuizRuns`): the quiz invariant and the scoring over runs of answers. Also the locked-guest defect of the `INIT_QUIZ` handler.
- `duel.dfy` (module `Duel`): two copies of the app joined by two first-in-first-out message queues, one per direction.
- `sound.dfy` (module `Sound`): the single background track shared by every user of the sound hook, the mute flag and its stored copy.
- `balloon.dfy` (module `Balloon`): the balloon mini-game's countdown, pop and one-shot music start.
- `prompt.dfy` (module `Prompt`): the instruction text built for every quiz-generation request.

Nondeterminism and the outside world become inputs:

- The room-code draw is an integer `k` in [0, 900000).
- The quiz generator's answer is `Generated(questions)` or `GenerationFailed`.
- The clock-derived fields of a history entry are an opaque `EntryMeta`.
- Each asynchronous completion is its own event: a peer or channel opening, an inbound connection, a message arriving, the 800 ms feedback timer firing.

The feedback timer's closure captures the new player state and the finished flag. It is modelled as a queue of armed timers that hold exactly those captured values.

Two defects of `App.tsx` are recorded under "## Findings". For each, the handler as written is kept beside a corrected one: `ReceiveAsWritten` beside `Receive`, `ReplayHistoryAsWritten` beside `ReplayHistory`, and `StartQuizAsWritten` beside `StartQuiz`. The event dispatcher `App.Apply`, and with it every run, the screens and the duel, uses the corrected handlers. The lemmas named `AsWritten…` and `StaleTimer…` state what the code as written does.

## Model

| member | source | states |
|---|---|---|
| Types.TypeValue | types.ts:2-6 | Every kind's wire string is one of the three enum values `multiple_choice`, `true_false` and `fill_blanks`. |
| Types.ParseType | types.ts:2-6 | Exactly the three wire strings `multiple_choice`, `true_false` and `fill_blanks` name a question kind, and the kind named has that wire string. |
| Types.TypeValueRoundTrip | types.ts:2-6 | Every kind is read back from its wire string, so the three strings are distinct. |
| Types.ParseDifficulty | types.ts:8 | Exactly `easy`, `medium` and `hard` are difficulties, each naming the difficulty whose string it is. |
| Types.DifficultyRoundTrip | types.ts:8 | Every difficulty is read back from its string. |
| Types.ParseLanguage | types.ts:9 | Exactly `ar`, `en` and `de` are languages, each naming the language whose code it is. |
| Types.LanguageRoundTrip | types.ts:9 | Every language is read back from its code. |
| Types.MessageTag | types.ts:44-47 | A message's tag is one of `INIT_QUIZ`, `PROGRESS` and `NEXT_READY`, and each tag belongs to exactly one payload shape. |
| Decimal.NatToString | App.tsx:11 | The rendering of a natural number is nonempty and all digits. It starts with `0` exactly when the number is zero. |
| Decimal.IntToString | geminiService.ts:31 | An integer's rendering starts with a minus sign exactly when it is negative, and is all digits otherwise. |
| Decimal.ParseRendered | App.tsx:11 | Parsing the digits of a rendering gives back the number. |
| Decimal.RenderedLength | App.tsx:11 | A number with `k` decimal digits renders in exactly `k` characters. |
| Decimal.RenderingInjective | geminiService.ts:31 | Distinct integers render differently. |
| App.Initial | App.tsx:143-164 | First render: sign-in screen, solo mode, no peer or connection, fresh player and opponent, no questions. The history is read back from storage, and the configuration is 5 questions, medium, Arabic, multiple choice. |
| App.ShortId | App.tsx:10-12 | Every room code has exactly six digits with a nonzero first digit, and its value is `100000 + k`, so it lies in [100000, 999999]. |
| App.ShortIdInjective | App.tsx:10-12 | Distinct draws give distinct room codes. |
| App.SaveToHistory | App.tsx:301 | The new game comes first and the list holds at most ten entries. It grows by one until it reaches ten. Entry `i` after the first is entry `i-1` of the old list. |
| App.NewEntry | App.tsx:293-300 | A history entry carries the played questions and configuration and has no best score. |
| App.ToggleLegal | App.tsx:404 | The consent box flips the consent flag and nothing else. |
| App.Login | App.tsx:283-291 | Without consent nothing happens. With consent the user is signed in and sent home, and audio is unlocked. |
| App.HomeButton | App.tsx:378-381 | On sign-in and home nothing happens. Elsewhere the step becomes home and the background stops; leaving the mini-game stops it a second time through the game's unmount. The peer and the connection are kept, and nothing is sent. |
| App.PointerDown | App.tsx:371 | A touch or press anywhere, on every screen, unlocks audio and changes nothing else. |
| App.HomeThenTouchResumesMusic | App.tsx:371-378 | The home button's stop lasts only until the next touch: the unlock resumes the same rewound track from the start. |
| App.ChooseSolo | App.tsx:426 | Solo mode, configuration step. |
| App.ChooseMulti | App.tsx:260-268 | The mode becomes duel at once. When the peer opens, the six-digit room code of the draw is shown in the lobby. |
| App.InboundConnection | App.tsx:237-244 | With a registered peer, every inbound connection becomes the connection, replacing any earlier one. Without a peer nothing happens. |
| App.GuestPeerOpen | App.tsx:270-274 | Once the joining peer opens, a peer and a connection exist. |
| App.GuestChannelOpen | App.tsx:275-277 | The opened channel shows the lobby. |
| App.LobbyGenerate | App.tsx:472-474 | Only a connected side with a room code, in the lobby, moves on to the configuration. Any other state is left unchanged. |
| App.SelectType | App.tsx:487 | The allowed types become exactly the chosen type. |
| App.OpenPaste | App.tsx:495 | The paste screen. |
| App.OpenHistory | App.tsx:437 | The history screen. |
| App.OpenMinigame | App.tsx:569 | The mini-game, with audio unlocked and then the mounted game's balloon track played. |
| App.MinigameDone | App.tsx:600 | Finishing the mini-game goes home, and the unmounted game stops the background. |
| App.StartQuiz | App.tsx:306-325 | The corrected start. On success: the questions are set, the player is reset, any feedback timer left armed by the last quiz is cancelled, the quiz is on screen and the entry is saved first in the history. `INIT_QUIZ` with exactly those questions and the current configuration is sent only when duelling over a connection. On failure: back to the configuration, with player and questions untouched and nothing sent. |
| App.StartQuizAsWritten | App.tsx:306-325 | As written: the same outcome and effects, except that on success an armed feedback timer stays armed. |
| App.ReplayHistoryAsWritten | App.tsx:581 | As written: on the history screen with a valid entry, solo mode, that entry's questions and configuration, a fresh player and the quiz screen, with any armed timer left armed. Otherwise nothing changes. |
| App.ReplayHistory | App.tsx:581 | The corrected replay: as written, and in addition any feedback timer left armed by the last quiz is cancelled. A valid entry on the history screen thus starts from a fresh player with no timer. |
| App.Advance | App.tsx:329-350 | A submission raises the score by one exactly on a correct pick and the index by one. It sets the wait flag. The player is finished exactly when the new index reaches the question count. `attempts` and `lastActionStatus` are kept. |
| App.Accepts | App.tsx:328-329 | A pick is acted upon exactly when the player is not waiting and the index names a question; past the end the source's lookup throws. |
| App.Submit | App.tsx:327-356 | While waiting, nothing changes and nothing is sent. An accepted pick updates the player as `Advance` states and highlights the option in the verdict's colour. It arms a timer holding the new state, plays the verdict's sound, and sends exactly one `PROGRESS` carrying the new state when duelling over a connection. |
| App.CooldownElapsed | App.tsx:358-367 | When not finished, the captured state becomes the player with the wait lifted and the highlight cleared. When finished, the reward screen with stop-background and win, and the player stays waiting. Never sends. |
| App.ReceiveAsWritten | App.tsx:246-258 | As written: `INIT_QUIZ` sets questions, configuration and the quiz step, and plays the background. It keeps the receiver's player. `PROGRESS` replaces the opponent verbatim. `NEXT_READY` changes nothing. |
| App.Receive | App.tsx:246-258 | The corrected handler. It behaves as written, except that `INIT_QUIZ` also resets the receiver's player and cancels its armed timer. It never sends. |
| App.Apply | App.tsx:237-600 | The dispatcher of every event to its handler, with the corrected `Receive` and `ReplayHistory`. Only a quiz start or a pick sends anything. Only login signs in, and nothing signs out. Only a successful start changes the history. |
| App.ApplyHistory | App.tsx:293-304 | Only a successful quiz start touches the history, and it leaves at most ten entries. |
| App.HistoryBounded | App.tsx:301 | Over any run of events, the history never holds more than ten entries. |
| App.OpponentOnlyFromProgress | App.tsx:254-256 | No event changes the opponent record except a received `PROGRESS`, which copies its payload verbatim. |
| App.MessagesComeFromTheirHandlers | App.tsx:315-317 | Only a successful duel start over a connection sends `INIT_QUIZ`. Only an accepted pick in a duel over a connection sends `PROGRESS`. `NEXT_READY` is never sent. |
| Screens.Enabled | App.tsx:377-600 | Which events the rendered screen offers. On sign-in only the consent box, login and a touch are offered, besides asynchronous sources; a touch is possible everywhere. |
| Screens.InitialSignedOut | App.tsx:143-147 | The first render is signed out on the sign-in screen, with no peer, connection or timer. |
| Screens.SignInNeedsConsent | App.tsx:283-291 | Of all events, only the login handler signs in, and only after consent. |
| Screens.EnabledKeepsSignIn | App.tsx:396-437 | Every event the current screen offers keeps the sign-in invariant: signed in, or still on sign-in with nothing connected. |
| Screens.EnabledRunKeepsSignIn | App.tsx:396-437 | The same over any run of offered events. |
| Screens.LoginGuard | App.tsx:283-291 | From the first render, every screen other than sign-in is reached only once signed in. |
| Screens.StaysPastSignIn | App.tsx:378 | No handler leads back to the sign-in screen. |
| Screens.NoReturnToSignIn | App.tsx:378 | Once left, the sign-in screen is never shown again. |
| Screens.MinigameSoundsAreTheGame | App.tsx:569-600 | Entering the mini-game performs the unlock and then the balloon game's mount sound; finishing it performs the game's unmount stop. |
| QuizRuns.StartEstablishes | App.tsx:306-325 | A successful corrected start establishes the quiz invariant, whatever timer the last quiz left armed. |
| QuizRuns.ReplayEstablishes | App.tsx:581 | A corrected history replay establishes the quiz invariant, whatever timer the last quiz left armed. |
| QuizRuns.ReceiveInitEstablishes | App.tsx:248-253 | Receiving `INIT_QUIZ` through the corrected handler establishes the quiz invariant in any receiver state. |
| QuizRuns.QuizEventKeepsInv | App.tsx:327-368 | A pick, a timer, a touch or a non-`INIT_QUIZ` message keeps the quiz invariant. The invariant: `0 <= score <= index <= count`; finished exactly at a nonzero last index; at most one armed timer, holding the current state; reward exactly when finished with no timer left. |
| QuizRuns.QuizRunKeepsInv | App.tsx:327-368 | The quiz invariant, the questions and the duel connection survive any run of quiz events. |
| QuizRuns.ReadyMeansAccepted | App.tsx:328-329 | A player who is not waiting in a running quiz with at least one question always has a current question, so the lookup past the end cannot happen. |
| QuizRuns.FinishedIsFinal | App.tsx:328-366 | Once finished, every later quiz event leaves the player unchanged and sends nothing. |
| QuizRuns.Answers | App.tsx:534 | A run of `n` picks, each followed by its timer, has `2n` quiz events. |
| QuizRuns.AnswerStep | App.tsx:327-368 | One pick and its timer add one point exactly on a correct pick and advance the index by one. They finish exactly on the last question, show the reward screen exactly then, and keep the invariant. |
| QuizRuns.AnswerStepSend | App.tsx:354-356 | One pick and its timer send one `PROGRESS` in a duel over a connection, and nothing otherwise. |
| QuizRuns.AnswersScore | App.tsx:327-368 | Answering several questions adds the number of correct picks to the score and the number of picks to the index. The player finishes exactly on the last question. |
| QuizRuns.AnswersSend | App.tsx:354-356 | Answering several questions in a duel over a connection sends one `PROGRESS` per pick and nothing else. Otherwise nothing is sent. |
| QuizRuns.LastAnswerStep | App.tsx:354-366 | On the last question the pick's `PROGRESS` carries exactly the state the finishing timer leaves. |
| QuizRuns.AnswersLastProgress | App.tsx:354-366 | After the last question, the final `PROGRESS` sent is the player's final state. |
| QuizRuns.FreshRunScore | App.tsx:313-342 | From a fresh player, the score is the number of correct picks, bounded by the number of picks and by the question count. |
| QuizRuns.ScenarioThreeQuestions | App.tsx:327-368 | With three questions, right then wrong gives one point and the quiz goes on. The third pick finishes on the reward screen, with one more point only if it is right. |
| QuizRuns.AsWrittenGuestStaysLocked | App.tsx:248-253 | As written, a receiver still waiting from an earlier quiz gets the new questions on screen. Every pick is then rejected and nothing is ever sent. |
| QuizRuns.LockedStaysLocked | App.tsx:328 | A waiting player with no timer armed stays unchanged through any quiz events, and nothing is sent. |
| QuizRuns.FinishedQuizLeavesPlayerWaiting | App.tsx:358-366 | Once the last question of any running quiz is answered, the player is finished and waiting with no timer left, on the reward screen. This is the state the as-written receiver keeps. |
| QuizRuns.CorrectedGuestCanAnswer | App.tsx:248-253 | With the reset, the receiver of a nonempty question list can answer at once, whatever it played before. |
| QuizRuns.StaleTimerOverwritesReplay | App.tsx:358-367 | As written, a pick, then home, history and a replay before the timer fires: the replay shows a fresh player, and the timer then replaces it with the previous quiz's player, one question on. |
| QuizRuns.StaleTimerOverwritesInit | App.tsx:358-367 | As written, an `INIT_QUIZ` arriving before the receiver's own timer fires: the timer then replaces the player with the previous quiz's. |
| QuizRuns.StaleTimerOverwritesStart | App.tsx:358-367 | As written, a pick, then home, the solo button and a start whose questions arrive before the timer fires: the timer replaces the new quiz's fresh player with the previous quiz's, one question on. |
| QuizRuns.CorrectedReplayIgnoresStaleTimer | App.tsx:358-367 | With the timer cancelled on replay, the same sequence keeps the fresh player and the quiz invariant. |
| QuizRuns.CorrectedInitIgnoresStaleTimer | App.tsx:358-367 | With the timer cancelled on `INIT_QUIZ`, the receiver keeps the fresh player and the quiz invariant. |
| QuizRuns.CorrectedStartIgnoresStaleTimer | App.tsx:358-367 | With the timer cancelled on a start, the same sequence keeps the fresh player and the quiz invariant. |
| Duel.HostDo | App.tsx:315-317 | The host takes its handler's new state, and exactly the messages that handler sent are queued behind those already in flight towards the guest; the guest and the other queue are untouched. |
| Duel.GuestDo | App.tsx:354-356 | The guest takes its handler's new state, and exactly the messages that handler sent are queued behind those already in flight towards the host; the host and the other queue are untouched. |
| Duel.GuestRun | App.tsx:354-356 | A run of guest events leaves the guest in the run's final state and appends exactly the run's messages, in order, to the queue towards the host, and to nothing else. |
| Duel.DeliverToGuest | App.tsx:278 | Delivery removes the oldest message towards the guest, and the guest takes what the corrected handler makes of it. The host and the other queue are untouched, since handling a message sends nothing. An empty queue changes nothing. |
| Duel.DeliverToHost | App.tsx:241 | Delivery removes the oldest message towards the host, and the host takes what the corrected handler makes of it. The guest and the other queue are untouched. An empty queue changes nothing. |
| Duel.DeliverAllToHost | App.tsx:241 | Delivering everything empties the queue towards the host and leaves the guest alone. |
| Duel.InitHandOff | App.tsx:248-253 | After a duelling host starts and its single `INIT_QUIZ` arrives, both sides show the same questions and configuration, on the quiz screen, from a fresh player with no timer armed. As written the guest gets the same questions and step but keeps its player and timer, so it starts fresh only in a first duel. |
| Duel.SoloStartSendsNothing | App.tsx:315 | Without a duel connection, starting sends nothing to the other side. |
| Duel.ProgressRoundTrip | App.tsx:254-256 | After a guest's accepted pick arrives, the host's opponent is the guest's new state: waiting, index advanced by one. Nothing else about the host changes. |
| Duel.RewardHostFollowsOpponent | App.tsx:254-256 | A host on the reward screen still follows the opponent and stays on the reward screen. |
| Duel.LastWriteWins | App.tsx:254-256 | After a burst of `PROGRESS` messages arrives, the opponent is the last payload, and nothing else about the host changed. |
| Duel.GuestPlaysThrough | App.tsx:327-368 | A duelling player who answers every question of a fresh quiz ends finished on the reward screen with one point per correct pick, having sent one `PROGRESS` per pick, the last carrying its final state. |
| Duel.FiveQuestionDuel | App.tsx:306-368 | A five-question duel through the corrected handler: the guest answers all five and its five `PROGRESS` messages arrive. The host then sees the guest finished, with one point per correct pick, while the host's own quiz is untouched. |
| Sound.Init | SoundManager.tsx:18-20 | At load there is no track, and the hook is muted exactly when the stored entry is `"true"`. |
| Sound.Play | SoundManager.tsx:36-80 | Background kind already referenced: no new track, only a resume. Otherwise a fresh looping track is built, carrying the mute flag, with the kind recorded. An effect starts exactly when not muted and never touches the track. |
| Sound.Stop | SoundManager.tsx:82-88 | With a track: paused, rewound, kind forgotten, reference kept. Without one: nothing. |
| Sound.ToggleMute | SoundManager.tsx:22-34 | The flag flips and the new value is stored as `"true"` or `"false"`. The current track's muted flag follows. |
| Sound.Unlock | SoundManager.tsx:90-93 | A paused track resumes, and nothing else changes. |
| Sound.Elapse | SoundManager.tsx:82-88 | Only a playing track advances its position. |
| Sound.ApplyKeepsValid | SoundManager.tsx:36-88 | Every operation keeps the controller invariant. The recorded kind names the referenced track, which is the newest built, loops, and follows the mute flag. |
| Sound.RunKeepsValid | SoundManager.tsx:36-88 | Any run of operations keeps the invariant: at most one background track is referenced, and it is the newest. |
| Sound.RunBuildsAtMostOnePerPlay | SoundManager.tsx:45-56 | Each operation builds at most one track. |
| Sound.PlayAfterStopBuildsFresh | SoundManager.tsx:82-88 | After a stop, the next background play of any kind builds a fresh playing track. |
| Sound.MuteSurvivesReload | SoundManager.tsx:18-33 | A reload reads back the flag the last toggle stored. |
| Sound.ToggleTwice | SoundManager.tsx:28-33 | Toggling twice restores the flag and the track. |
| Balloon.Countdown | BalloonPopGame.tsx:43-53 | At or below one: zero, with stop-background and win. From two to six: one less, with a tick. Above six: one less, silently. Never negative. |
| Balloon.AfterCountsDown | BalloonPopGame.tsx:43-53 | Before it runs out, the counter drops by exactly one per second. |
| Balloon.ZeroStays | BalloonPopGame.tsx:44-48 | At zero the counter stays zero and signals the finish every second. |
| Balloon.AfterSplit | BalloonPopGame.tsx:42-54 | Seconds compose: counter, ticks and finishes over `m + n` seconds are those of `m` seconds then `n` seconds. |
| Balloon.FullCountdown | BalloonPopGame.tsx:42-54 | From `t >= 1`, exactly `t` seconds reach zero, with `min(t, 6) - 1` ticks and one finish. |
| Balloon.GameTimer | BalloonPopGame.tsx:42-54 | From 15 the counter strictly decreases and is zero exactly from the fifteenth second on, with five ticks. The finish repeats every later second. |
| Balloon.Without | BalloonPopGame.tsx:72 | A balloon survives the filter exactly when its identifier differs. |
| Balloon.WithoutAppend | BalloonPopGame.tsx:72 | The filter keeps order: it distributes over concatenation. |
| Balloon.WithoutAbsent | BalloonPopGame.tsx:72 | Filtering an absent identifier changes nothing. |
| Balloon.Mount | BalloonPopGame.tsx:7-24 | An empty sky, zero popped, 15 seconds, music not yet marked as started, and the balloon track playing. |
| Balloon.TimerTick | BalloonPopGame.tsx:42-54 | One second applies the reducer. The sound controller is stopped and plays the win sound, plays a tick, or is left alone, according to the old value. |
| Balloon.Spawn | BalloonPopGame.tsx:25-36 | A new balloon joins at the end, and nothing else changes. |
| Balloon.Pop | BalloonPopGame.tsx:64-76 | Pop removes the identifier's balloons and counts one pop even for an absent identifier. Music is marked started. The first pop unlocks audio and starts the balloon track; every pop plays the pop sound. |
| Balloon.Unmount | BalloonPopGame.tsx:56-61 | Unmounting pauses and rewinds the track, so the next background play builds a fresh one. |
| Balloon.FirstPopPlaysMusic | BalloonPopGame.tsx:66-70 | The first pop leaves the balloon track playing, and a later pop leaves the track alone. |
| Balloon.PopAbsentStillCounts | BalloonPopGame.tsx:72-73 | Popping an identifier not on screen keeps the sky and still counts. |
| Balloon.SecondsTime | BalloonPopGame.tsx:42-54 | The game's counter after `n` seconds is the reducer applied `n` times. |
| Balloon.OverlayAfterFifteen | BalloonPopGame.tsx:113 | After mounting, the end overlay is on screen exactly from the fifteenth second on. |
| Prompt.DescribeTag | geminiService.ts:24-28 | Each kind's wire string maps to its fixed description. Every other string, and only those, maps to the empty string. |
| Prompt.DescriptionCommaFree | geminiService.ts:24-28 | No description contains a comma. |
| Prompt.LanguageName | geminiService.ts:23 | Every language has a nonempty English name without a full stop, so the name runs up to the period after it. |
| Prompt.LanguageNameInjective | geminiService.ts:23 | Distinct languages have distinct names. |
| Prompt.Join | geminiService.ts:29 | Joining with `", "`: no pieces give the empty text; otherwise the first piece opens it, the last closes it, and its length is the pieces' lengths plus two per separator. |
| Prompt.SplitJoin | geminiService.ts:29 | Splitting at `", "` undoes the join when no piece contains a comma. |
| Prompt.Descriptions | geminiService.ts:24-28 | One description per allowed type, in order. |
| Prompt.TypesDescription | geminiService.ts:24-29 | No allowed types describe as the empty string; otherwise the first type's description opens the text, and a single type is described by its description alone. |
| Prompt.TypesDescriptionSegments | geminiService.ts:24-29 | The description list has one segment per allowed type, each that type's description, in the order of the allowed types. |
| Prompt.SystemInstruction | geminiService.ts:31-36 | The instruction opens with the expert line and closes with the demand for the bare JSON array. |
| Prompt.Pieces | geminiService.ts:31-36 | The instruction has nine pieces: five fixed lines, with the count, difficulty, language name and type descriptions between them. |
| Prompt.PieceAt | geminiService.ts:31-36 | Each piece occurs in the instruction at the total length of the pieces before it. |
| Prompt.ConcatFrame | geminiService.ts:31-36 | The first piece opens the concatenation and the last closes it, and its length is the sum of the pieces' lengths. |
| Prompt.InstructionCarriesConfig | geminiService.ts:23-34 | The instruction contains verbatim, each right after its fixed line: the count's decimal rendering, the difficulty string, the language name and the type descriptions. |
| Prompt.NumericAfterFirst | geminiService.ts:31 | A run of digits placed right after the expert line, and stopped by a non-digit, is what the count reader returns. |
| Prompt.CountReadBack | geminiService.ts:31 | The count's rendering is read back as the numeric run after the first line. |
| Prompt.InstructionDeterminesCount | geminiService.ts:31 | Configurations with different counts give different instructions. |

## Left out

- Rendering, translations, the legal modal, the logo, the loading animation and styling: presentation only.
- The peer library: peer objects, `open`/`connection`/`data` callbacks and `send`. Only the presence of a peer and a connection is kept, plus the list of messages each handler sends. In the duel, delivery is first-in-first-out per direction.
- The quiz generator service and the JSON parsing of its reply. Its result is an input to `StartQuiz`. The image and pasted-text starts are one event.
- Storage, the clock and the history title's substring. The history entry is opaque apart from its questions, configuration and list position. The history load on language change is left out, as is the language switch.
- Timing of the 800 ms timer, the intervals and the 2 s copy notice. Each firing is an explicit event.
- React's batched updates. Handlers are sequential and atomic; the feedback timer's stale closure is modelled by the state it captured.
- The `loading` step. `StartQuiz` goes straight from the start to the generator's completion, so leaving for home while loading is not modelled. A feedback timer that fires while loading is a timer event before the start; the start path of the second finding needs the generator to answer within the 800 ms.
- Floating point: balloon position, speed, size and movement, and audio volumes. With the movement goes the 30 ms interval that drops every balloon whose offset reaches 120, so in the model the sky shrinks only by pops, and `Balloon.Spawn` is the only way it grows. The room-code draw is already an integer.
- The audio autoplay fallback listeners of the sound hook and the silent unlock clip. Starting playback is assumed to succeed. The root element's touch handler is modelled as `PointerDownEvent`.
- The mini-game's spawn guard reads the value captured at mount, which is always 15. `Spawn` therefore always adds a balloon, and no stop is modelled.
- At most one `INIT_QUIZ` per duel is not a property of the code. Both sides hold a room code, since the join field is reached through the duel button, so both see the generate button, and every successful duel start sends one. Two crossed starts leave each side with the other's questions; no lemma rules this out. `InitHandOff` assumes an empty queue.
- No transport teardown on the home button, and no "first connection only" rule. The code has neither: `HomeButton` keeps the peer and the connection, and `InboundConnection` replaces the connection on every inbound connection.
- Sound.Init: a single mute flag. Every user of the hook reads the same stored entry at load, and the model does not track separate hook instances.
- App.Submit: a pick with the index past the last question throws in the source before any update. It is modelled as changing nothing. `QuizRuns.ReadyMeansAccepted` shows it cannot happen in a running quiz.
- Prompt.TypesDescriptionSegments: stated for at least one allowed type. An empty list joins to the empty string, which splits to one empty segment, not zero.
- Balloon.TimerTick: the finish signal repeats every second after zero because the interval is never cleared. `Balloon.GameTimer` states this rather than a single finish.
- App.ChooseMulti: the click and the peer's `open` are one event. The lobby is reached only when the peer opens.
- App.Apply: dispatches messages to the corrected `Receive`, history entries to the corrected `ReplayHistory` and starts to the corrected `StartQuiz`, not to the handlers as written. Every run-level lemma therefore describes the corrected program; the as-written behaviour is stated only by the `AsWritten…` and `StaleTimer…` lemmas.
- Duel.DeliverToGuest: delivers through the corrected `Receive`, which resets the guest's player and cancels its timer on `INIT_QUIZ`.
- Duel.DeliverToHost: delivers through the corrected `Receive`. For the `PROGRESS` messages a host receives in this model the two handlers agree.
- Duel.InitHandOff: the guest's fresh player, and both sides' cancelled timers, come from the corrected handlers. For the handler as written the lemma states only that the guest keeps its previous player and timer.
- Duel.FiveQuestionDuel: holds for the corrected handler. As written, a guest still waiting from an earlier quiz answers none of the five, as `QuizRuns.AsWrittenGuestStaysLocked` shows.
- JavaScript numbers are doubles; the model uses unbounded integers throughout, for counts, scores, indices and the quiz count. `Decimal.IntToString` matches `toString()` only below 10^21 in magnitude, where JavaScript switches to exponent form such as `1e+21`. Fractional counts are not modelled.

## Findings

| source | as written | input that shows it | evidently intended | confidence | as-written member | corrected member |
|---|---|---|---|---|---|---|
| App.tsx:248-253 | `INIT_QUIZ` sets questions, configuration and the quiz step but keeps the receiver's player. | A guest who finished an earlier quiz (player waiting, no timer) receives a new `INIT_QUIZ`: every pick is rejected and it can never answer. | Reset the receiver's player, as `startQuiz` and the history replay do. | not executed | QuizRuns.AsWrittenGuestStaysLocked | QuizRuns.CorrectedGuestCanAnswer |
| App.tsx:358-367 | The 800 ms feedback timer is never cancelled. A quiz start, a history replay or a received `INIT_QUIZ` before it fires starts a fresh player, which the timer then overwrites. | A pick, then home, history and a replay within 800 ms: the replayed quiz continues with the previous quiz's player, one question on. | Cancel the pending timer when a new quiz starts. | not executed | QuizRuns.StaleTimerOverwritesReplay | QuizRuns.CorrectedReplayIgnoresStaleTimer |

=== FILE: app.dfy ===
/** The quiz and duel state machine of App.tsx. The component's state is one
    record; each handler is a pure transition returning the new record and the
    effects it performs (messages sent over the peer connection, calls into the
    sound hook). Asynchronous completions (the peer library's `open` events, the
    quiz generator's result, the 800 ms feedback timer) are separate events or
    inputs. */
module App {
  import opened Types
  import Sound
  import Decimal

  datatype Step = Auth | Home | Config | Loading | Quiz | Reward | Paste | History | Lobby | Minigame

  datatype Mode = Solo | Multi

  /** The colour of the option the player picked. */
  datatype Verdict = CorrectPick | WrongPick

  datatype Feedback = Feedback(index: int, status: Option<Verdict>)

  /** No option highlighted. */
  const NoFeedback: Feedback := Feedback(-1, None)

  /** A pending feedback timer: the state and the finished flag its closure captured. */
  datatype Cooldown = Cooldown(state: PlayerState, finished: bool)

  /** The component state. `peer` and `conn` record only whether a peer object and
      a data connection exist; `pending` holds the armed feedback timers, oldest first. */
  datatype App = App(
    step: Step,
    mode: Mode,
    player: PlayerState,
    opponent: PlayerState,
    questions: seq<Question>,
    config: QuizConfig,
    history: seq<SavedGame>,
    peer: bool,
    conn: bool,
    roomId: string,
    feedback: Feedback,
    pending: seq<Cooldown>,
    legalAccepted: bool,
    signedIn: bool)

  /** What a handler does besides changing state. */
  datatype Effect =
    | Send(msg: MultiplayerMessage)
    | PlaySound(kind: Sound.SoundKind)
    | StopBg
    | UnlockAudio

  datatype Outcome = Outcome(app: App, effects: seq<Effect>)

  /** The messages among the effects, in order. */
  function Sent(effects: seq<Effect>): (r: seq<MultiplayerMessage>)
    ensures |r| <= |effects|
    ensures forall m :: m in r <==> Send(m) in effects
    decreases |effects|
  {
    if |effects| == 0 then []
    else (if effects[0].Send? then [effects[0].msg] else []) + Sent(effects[1..])
  }

  lemma {:induction false} SentAppend(xs: seq<Effect>, ys: seq<Effect>)
    ensures Sent(xs + ys) == Sent(xs) + Sent(ys)
    decreases |xs|
  {
    if |xs| == 0 {
      assert xs + ys == ys;
    } else {
      assert (xs + ys)[1..] == xs[1..] + ys;
      SentAppend(xs[1..], ys);
    }
  }

  const DefaultConfig: QuizConfig := QuizConfig(5, Medium, Ar, [MultipleChoice])

  /** The state on first render; `saved` is the history read back from storage. */
  function Initial(saved: seq<SavedGame>): (a: App)
    ensures a.step == Auth && a.mode == Solo && !a.conn && !a.peer && a.roomId == ""
    ensures a.player == FreshPlayer && a.opponent == FreshPlayer && a.pending == []
    ensures a.questions == [] && a.history == saved && a.config == DefaultConfig
  {
    App(Auth, Solo, FreshPlayer, FreshPlayer, [], DefaultConfig, saved,
        false, false, "", NoFeedback, [], false, false)
  }

  // ---------------------------------------------------------------- room code

  /** The integer that `Math.random() * 900000` floors to. */
  type RoomDraw = k: int | 0 <= k < 900000

  /** `generateShortId`: the decimal rendering of `100000 + k`. */
  function ShortId(k: RoomDraw): (id: string)
    ensures |id| == 6
    ensures Decimal.AllDigits(id) && id[0] != '0'
    ensures Decimal.ParseDigits(id) == 100000 + k
    ensures 100000 <= Decimal.ParseDigits(id) <= 999999
  {
    var n: nat := 100000 + k;
    assert Decimal.Pow10(5) == 100000 && Decimal.Pow10(6) == 1000000;
    Decimal.RenderedLength(n, 6);
    Decimal.ParseRendered(n);
    Decimal.NatToString(n)
  }

  /** Distinct draws give distinct codes. */
  lemma ShortIdInjective(j: RoomDraw, k: RoomDraw)
    requires ShortId(j) == ShortId(k)
    ensures j == k
  {
  }

  // ------------------------------------------------------------ history list

  const HistoryLimit: nat := 10

  /** `saveToHistory`'s list update: the new game first, then the first nine of the old list. */
  function SaveToHistory(history: seq<SavedGame>, g: SavedGame): (r: seq<SavedGame>)
    ensures 1 <= |r| <= HistoryLimit
    ensures r[0] == g
    ensures |r| == if |history| < HistoryLimit then |history| + 1 else HistoryLimit
    ensures forall i :: 1 <= i < |r| ==> r[i] == history[i - 1]
  {
    [g] + history[..if |history| < HistoryLimit - 1 then |history| else HistoryLimit - 1]
  }

  /** The fields of a history entry that come from the clock and the first question. */
  datatype EntryMeta = EntryMeta(id: string, date: string, title: string)

  function NewEntry(qs: seq<Question>, cfg: QuizConfig, meta: EntryMeta): (g: SavedGame)
    ensures g.questions == qs && g.config == cfg && g.bestScore.None?
  {
    SavedGame(meta.id, meta.date, meta.title, qs, cfg, None)
  }

  // ---------------------------------------------------------- sign-in, menus

  /** The consent checkbox. */
  function ToggleLegal(a: App): (r: Outcome)
    ensures r.app == a.(legalAccepted := !a.legalAccepted) && r.effects == []
  {
    Outcome(a.(legalAccepted := !a.legalAccepted), [])
  }

  /** `handleLogin`: refused (an alert) until the terms are accepted. */
  function Login(a: App): (r: Outcome)
    ensures !a.legalAccepted ==> r.app == a && r.effects == []
    ensures a.legalAccepted ==>
      r.app == a.(signedIn := true, step := Home) && r.effects == [UnlockAudio]
  {
    if !a.legalAccepted then Outcome(a, [])
    else Outcome(a.(signedIn := true, step := Home), [UnlockAudio])
  }

  /** The home and back buttons, shown on every step except sign-in and home.
      They stop the background music and change nothing else: the peer and the
      connection stay as they are. Leaving the mini-game also unmounts it, and
      its cleanup stops the background a second time. */
  function HomeButton(a: App): (r: Outcome)
    ensures a.step == Auth || a.step == Home ==> r.app == a && r.effects == []
    ensures a.step != Auth && a.step != Home ==>
      && r.app.step == Home && r.app == a.(step := Home)
      && r.effects == [StopBg] + (if a.step == Minigame then [StopBg] else [])
    ensures r.app.conn == a.conn && r.app.peer == a.peer && Sent(r.effects) == []
  {
    if a.step == Auth || a.step == Home then Outcome(a, [])
    else if a.step == Minigame then Outcome(a.(step := Home), [StopBg, StopBg])
    else Outcome(a.(step := Home), [StopBg])
  }

  /** A touch or mouse press anywhere on the page: the root element's handler
      unlocks audio, on every screen, and nothing else changes. */
  function PointerDown(a: App): (r: Outcome)
    ensures r.app == a && r.effects == [UnlockAudio]
  {
    Outcome(a, [UnlockAudio])
  }

  function ChooseSolo(a: App): (r: Outcome)
    ensures r.app == a.(mode := Solo, step := Config) && r.effects == []
  {
    Outcome(a.(mode := Solo, step := Config), [])
  }

  /** The duel button: the mode changes at once; when the new peer reports `open`
      (`isOpen`), the room code is shown in the lobby. */
  function ChooseMulti(a: App, k: RoomDraw, isOpen: bool): (r: Outcome)
    ensures r.app.mode == Multi && r.effects == []
    ensures isOpen ==> r.app == a.(mode := Multi, roomId := ShortId(k), peer := true, step := Lobby)
    ensures !isOpen ==> r.app == a.(mode := Multi)
    ensures isOpen ==> |r.app.roomId| == 6
  {
    if isOpen then Outcome(a.(mode := Multi, roomId := ShortId(k), peer := true, step := Lobby), [])
    else Outcome(a.(mode := Multi), [])
  }

  /** A peer connected to our registered code. Every inbound connection replaces
      the previous one; the opponent record is not reset. */
  function InboundConnection(a: App): (r: Outcome)
    ensures a.peer ==> r.app == a.(conn := true)
    ensures !a.peer ==> r.app == a
    ensures r.effects == []
  {
    if a.peer then Outcome(a.(conn := true), []) else Outcome(a, [])
  }

  /** `joinRoom`, first half: our anonymous peer opened and the connection object exists. */
  function GuestPeerOpen(a: App): (r: Outcome)
    ensures r.app == a.(peer := true, conn := true) && r.effects == []
  {
    Outcome(a.(peer := true, conn := true), [])
  }

  /** `joinRoom`, second half: the data channel isOpen. */
  function GuestChannelOpen(a: App): (r: Outcome)
    ensures r.app == a.(step := Lobby) && r.effects == []
  {
    Outcome(a.(step := Lobby), [])
  }

  /** The lobby's generate button, shown once connected and only to a side that has a room code. */
  function LobbyGenerate(a: App): (r: Outcome)
    ensures (a.step == Lobby && a.conn && a.roomId != "") ==> r.app == a.(step := Config)
    ensures !(a.step == Lobby && a.conn && a.roomId != "") ==> r.app == a
    ensures r.effects == []
  {
    if a.step == Lobby && a.conn && a.roomId != "" then Outcome(a.(step := Config), [])
    else Outcome(a, [])
  }

  /** A question-type button: the allowed types become that one type. */
  function SelectType(a: App, t: QuestionType): (r: Outcome)
    ensures r.app.config.allowedTypes == [t]
    ensures r.app == a.(config := a.config.(allowedTypes := [t])) && r.effects == []
  {
    Outcome(a.(config := a.config.(allowedTypes := [t])), [])
  }

  function OpenPaste(a: App): (r: Outcome)
    ensures r.app == a.(step := Paste) && r.effects == []
  {
    Outcome(a.(step := Paste), [])
  }

  function OpenHistory(a: App): (r: Outcome)
    ensures r.app == a.(step := History) && r.effects == []
  {
    Outcome(a.(step := History), [])
  }

  /** The mini-game button: the button's own unlock, then the mounted game's
      `playSound('balloon_bg')`. */
  function OpenMinigame(a: App): (r: Outcome)
    ensures r.app == a.(step := Minigame)
    ensures r.effects == [UnlockAudio, PlaySound(Sound.BalloonBg)]
  {
    Outcome(a.(step := Minigame), [UnlockAudio, PlaySound(Sound.BalloonBg)])
  }

  /** The mini-game's `onFinish`: home, and the unmounted game's cleanup stops the background. */
  function MinigameDone(a: App): (r: Outcome)
    ensures r.app == a.(step := Home) && r.effects == [StopBg]
  {
    Outcome(a.(step := Home), [StopBg])
  }

  // ------------------------------------------------------------- quiz start

  /** What the quiz generator produced: a question list, or a failure
      (network or parse error). */
  datatype Generation = Generated(questions: seq<Question>) | GenerationFailed

  /** `startQuiz`, from its start to the generator's completion, with the
      previous quiz's feedback timer cancelled on success. */
  function StartQuiz(a: App, gen: Generation, meta: EntryMeta): (r: Outcome)
    // success: new questions, a fresh player, the entry saved, the quiz on screen
    ensures gen.Generated? ==>
      && r.app.questions == gen.questions
      && r.app.player == FreshPlayer
      && r.app.step == Quiz
      && r.app.history == SaveToHistory(a.history, NewEntry(gen.questions, a.config, meta))
      && r.app == a.(questions := gen.questions, player := FreshPlayer, step := Quiz,
                     history := r.app.history, pending := [])
    // success: INIT_QUIZ goes out exactly when duelling over a connection
    ensures gen.Generated? ==>
      Sent(r.effects) == if a.mode == Multi && a.conn then [InitQuiz(gen.questions, a.config)] else []
    ensures gen.Generated? ==> PlaySound(Sound.Bg) in r.effects
    // failure: back to the configuration, nothing else touched, nothing sent
    ensures gen.GenerationFailed? ==>
      r.app == a.(step := Config) && Sent(r.effects) == [] && r.effects == [UnlockAudio]
  {
    match gen
    case GenerationFailed => Outcome(a.(step := Config), [UnlockAudio])
    case Generated(qs) =>
      var init := if a.mode == Multi && a.conn then [Send(InitQuiz(qs, a.config))] else [];
      var effects := [UnlockAudio] + init + [PlaySound(Sound.Bg)];
      assert Sent(effects) == Sent([UnlockAudio]) + Sent(init) + Sent([PlaySound(Sound.Bg)]) by {
        SentAppend([UnlockAudio] + init, [PlaySound(Sound.Bg)]);
        SentAppend([UnlockAudio], init);
      }
      var app := a.(questions := qs,
                    history := SaveToHistory(a.history, NewEntry(qs, a.config, meta)),
                    player := FreshPlayer,
                    pending := [],
                    step := Quiz);
      Outcome(app, effects)
  }

  /** `startQuiz` as written: the same outcome, except that a feedback timer
      still armed from the last quiz stays armed. */
  function StartQuizAsWritten(a: App, gen: Generation, meta: EntryMeta): (r: Outcome)
    ensures gen.GenerationFailed? ==> r == StartQuiz(a, gen, meta)
    ensures gen.Generated? ==>
      && r.app == StartQuiz(a, gen, meta).app.(pending := a.pending)
      && r.effects == StartQuiz(a, gen, meta).effects
  {
    match gen
    case GenerationFailed => Outcome(a.(step := Config), [UnlockAudio])
    case Generated(qs) =>
      var init := if a.mode == Multi && a.conn then [Send(InitQuiz(qs, a.config))] else [];
      var app := a.(questions := qs,
                    history := SaveToHistory(a.history, NewEntry(qs, a.config, meta)),
                    player := FreshPlayer,
                    step := Quiz);
      Outcome(app, [UnlockAudio] + init + [PlaySound(Sound.Bg)])
  }

  /** A history entry's button as written: replay its questions solo from a
      fresh player. A feedback timer still armed from the last quiz stays armed. */
  function ReplayHistoryAsWritten(a: App, i: int): (r: Outcome)
    ensures !(a.step == History && 0 <= i < |a.history|) ==> r.app == a && r.effects == []
    ensures a.step == History && 0 <= i < |a.history| ==>
      && r.app == a.(mode := Solo, questions := a.history[i].questions,
                     config := a.history[i].config, player := FreshPlayer, step := Quiz)
      && r.effects == [PlaySound(Sound.Bg)]
  {
    if a.step == History && 0 <= i < |a.history| then
      var g := a.history[i];
      Outcome(a.(mode := Solo, questions := g.questions, config := g.config,
                 player := FreshPlayer, step := Quiz), [PlaySound(Sound.Bg)])
    else Outcome(a, [])
  }

  /** The replay with the previous quiz's feedback timer cancelled; otherwise
      identical to the code as written. */
  function ReplayHistory(a: App, i: int): (r: Outcome)
    ensures !(a.step == History && 0 <= i < |a.history|) ==> r == ReplayHistoryAsWritten(a, i)
    ensures a.step == History && 0 <= i < |a.history| ==>
      && r.app == ReplayHistoryAsWritten(a, i).app.(pending := [])
      && r.effects == ReplayHistoryAsWritten(a, i).effects
      && r.app.player == FreshPlayer && r.app.pending == []
  {
    var o := ReplayHistoryAsWritten(a, i);
    if a.step == History && 0 <= i < |a.history| then Outcome(o.app.(pending := []), o.effects)
    else o
  }

  // ---------------------------------------------------------------- answers

  /** The player state one submission produces. */
  function Advance(p: PlayerState, correct: bool, total: int): (q: PlayerState)
    ensures q.score == p.score + (if correct then 1 else 0)
    ensures q.currentQuestionIndex == p.currentQuestionIndex + 1
    ensures q.isFinished == (p.currentQuestionIndex + 1 >= total)
    ensures q.isWaiting
    ensures q.attempts == p.attempts && q.lastActionStatus == p.lastActionStatus
  {
    p.(score := p.score + (if correct then 1 else 0),
       currentQuestionIndex := p.currentQuestionIndex + 1,
       isFinished := p.currentQuestionIndex + 1 >= total,
       isWaiting := true)
  }

  /** Whether a submission is acted upon: not during the cooldown, and only with a
      current question (past the end the source's lookup throws before any update). */
  predicate Accepts(a: App)
  {
    !a.player.isWaiting && 0 <= a.player.currentQuestionIndex < |a.questions|
  }

  predicate IsCorrect(a: App, opt: string)
    requires 0 <= a.player.currentQuestionIndex < |a.questions|
  {
    opt == a.questions[a.player.currentQuestionIndex].correctAnswer
  }

  /** `handleAnswer(opt, idx)` up to arming the timer. */
  function Submit(a: App, opt: string, idx: int): (r: Outcome)
    // rejected: nothing changes, nothing is sent or played
    ensures !Accepts(a) ==> r.app == a && r.effects == []
    // accepted: the score rises by one exactly on a correct pick, the index by one
    ensures Accepts(a) ==>
      && r.app.player.score == a.player.score + (if IsCorrect(a, opt) then 1 else 0)
      && r.app.player.currentQuestionIndex == a.player.currentQuestionIndex + 1
      && r.app.player.isWaiting
      && r.app.player.isFinished == (r.app.player.currentQuestionIndex >= |a.questions|)
      && r.app.player.attempts == a.player.attempts
      && r.app.player.lastActionStatus == a.player.lastActionStatus
    // accepted: the picked option is highlighted and a timer captures the new state
    ensures Accepts(a) ==>
      && r.app.feedback == Feedback(idx, Some(if IsCorrect(a, opt) then CorrectPick else WrongPick))
      && r.app.pending == a.pending + [Cooldown(r.app.player, r.app.player.isFinished)]
      && r.app == a.(player := r.app.player, feedback := r.app.feedback, pending := r.app.pending)
    // accepted: exactly one PROGRESS carrying the new state when duelling over a connection
    ensures Accepts(a) ==>
      Sent(r.effects) == if a.mode == Multi && a.conn then [Progress(r.app.player)] else []
    ensures Accepts(a) ==>
      PlaySound(if IsCorrect(a, opt) then Sound.CorrectSfx else Sound.WrongSfx) in r.effects
  {
    if !Accepts(a) then Outcome(a, [])
    else
      var correct := IsCorrect(a, opt);
      var next := Advance(a.player, correct, |a.questions|);
      var progress := if a.mode == Multi && a.conn then [Send(Progress(next))] else [];
      var effects := [PlaySound(if correct then Sound.CorrectSfx else Sound.WrongSfx)] + progress;
      assert Sent(effects) == Sent(progress) by {
        SentAppend([PlaySound(if correct then Sound.CorrectSfx else Sound.WrongSfx)], progress);
      }
      var app := a.(player := next,
                    feedback := Feedback(idx, Some(if correct then CorrectPick else WrongPick)),
                    pending := a.pending + [Cooldown(next, next.isFinished)]);
      Outcome(app, effects)
  }

  /** The oldest feedback timer fires. Not finished: the captured state with the
      wait lifted becomes the player and the highlight clears. Finished: the
      reward screen, with the player still waiting. */
  function CooldownElapsed(a: App): (r: Outcome)
    ensures a.pending == [] ==> r.app == a && r.effects == []
    ensures a.pending != [] && !a.pending[0].finished ==>
      && r.app.player == a.pending[0].state.(isWaiting := false)
      && r.app.feedback == NoFeedback
      && r.app == a.(player := r.app.player, feedback := NoFeedback, pending := a.pending[1..])
      && r.effects == []
    ensures a.pending != [] && a.pending[0].finished ==>
      && r.app == a.(step := Reward, pending := a.pending[1..])
      && r.effects == [StopBg, PlaySound(Sound.WinSfx)]
    ensures Sent(r.effects) == []
  {
    if a.pending == [] then Outcome(a, [])
    else
      var c := a.pending[0];
      if !c.finished then
        Outcome(a.(player := c.state.(isWaiting := false), feedback := NoFeedback,
                   pending := a.pending[1..]), [])
      else
        Outcome(a.(step := Reward, pending := a.pending[1..]), [StopBg, PlaySound(Sound.WinSfx)])
  }

  // --------------------------------------------------------------- messages

  /** `handleMultiplayerData` as written. */
  function ReceiveAsWritten(a: App, m: MultiplayerMessage): (r: Outcome)
    ensures m.InitQuiz? ==>
      r.app == a.(questions := m.questions, config := m.config, step := Quiz)
      && r.effects == [PlaySound(Sound.Bg)]
    ensures m.Progress? ==> r.app == a.(opponent := m.state) && r.effects == []
    ensures m.NextReady? ==> r.app == a && r.effects == []
  {
    match m
    case InitQuiz(qs, cfg) => Outcome(a.(questions := qs, config := cfg, step := Quiz), [PlaySound(Sound.Bg)])
    case Progress(s) => Outcome(a.(opponent := s), [])
    case NextReady => Outcome(a, [])
  }

  /** `handleMultiplayerData` with the receiver's player reset and its feedback
      timer cancelled on `INIT_QUIZ`, as a fresh quiz start needs; otherwise
      identical to the code as written. */
  function Receive(a: App, m: MultiplayerMessage): (r: Outcome)
    ensures m.InitQuiz? ==>
      && r.app == ReceiveAsWritten(a, m).app.(player := FreshPlayer, pending := [])
      && r.effects == ReceiveAsWritten(a, m).effects
      && r.app.questions == m.questions && r.app.config == m.config && r.app.step == Quiz
    ensures !m.InitQuiz? ==> r == ReceiveAsWritten(a, m)
    ensures m.Progress? ==> r.app.opponent == m.state && r.app.player == a.player
    ensures Sent(r.effects) == []
  {
    match m
    case InitQuiz(qs, cfg) =>
      Outcome(a.(questions := qs, config := cfg, player := FreshPlayer, pending := [], step := Quiz),
              [PlaySound(Sound.Bg)])
    case _ => ReceiveAsWritten(a, m)
  }

  // ----------------------------------------------------------------- events

  datatype Event =
    | ToggleLegalEvent
    | LoginEvent
    | HomeEvent
    | SoloEvent
    | MultiEvent(k: RoomDraw, isOpen: bool)
    | InboundEvent
    | GuestPeerOpenEvent
    | GuestChannelOpenEvent
    | GenerateEvent
    | SelectTypeEvent(t: QuestionType)
    | PasteEvent
    | HistoryEvent
    | StartEvent(gen: Generation, meta: EntryMeta)
    | ReplayEvent(i: int)
    | AnswerEvent(opt: string, idx: int)
    | CooldownEvent
    | MessageEvent(msg: MultiplayerMessage)
    | MinigameEvent
    | MinigameDoneEvent
    | PointerDownEvent

  /** One event, dispatched to its handler. Messages go through the corrected
      `Receive` and history entries through the corrected `ReplayHistory`. */
  function Apply(a: App, e: Event): (r: Outcome)
    // only a quiz start or a pick sends anything
    ensures Sent(r.effects) != [] ==> e.StartEvent? || e.AnswerEvent?
    // only the login handler signs in, and nothing signs out
    ensures r.app.signedIn != a.signedIn ==> e.LoginEvent? && r.app.signedIn
    // only a successful quiz start touches the history
    ensures r.app.history != a.history ==> e.StartEvent? && e.gen.Generated?
  {
    match e
    case ToggleLegalEvent => ToggleLegal(a)
    case LoginEvent => Login(a)
    case HomeEvent => HomeButton(a)
    case SoloEvent => ChooseSolo(a)
    case MultiEvent(k, isOpen) => ChooseMulti(a, k, isOpen)
    case InboundEvent => InboundConnection(a)
    case GuestPeerOpenEvent => GuestPeerOpen(a)
    case GuestChannelOpenEvent => GuestChannelOpen(a)
    case GenerateEvent => LobbyGenerate(a)
    case SelectTypeEvent(t) => SelectType(a, t)
    case PasteEvent => OpenPaste(a)
    case HistoryEvent => OpenHistory(a)
    case StartEvent(gen, meta) => StartQuiz(a, gen, meta)
    case ReplayEvent(i) => ReplayHistory(a, i)
    case AnswerEvent(opt, idx) => Submit(a, opt, idx)
    case CooldownEvent => CooldownElapsed(a)
    case MessageEvent(m) => Receive(a, m)
    case MinigameEvent => OpenMinigame(a)
    case MinigameDoneEvent => MinigameDone(a)
    case PointerDownEvent => PointerDown(a)
  }

  /** A run of events, with all effects concatenated in order. */
  function Run(a: App, es: seq<Event>): Outcome
    decreases |es|
  {
    if |es| == 0 then Outcome(a, [])
    else
      var first := Apply(a, es[0]);
      var rest := Run(first.app, es[1..]);
      Outcome(rest.app, first.effects + rest.effects)
  }

  /** Only a successful quiz start touches the history. */
  lemma ApplyHistory(a: App, e: Event)
    ensures !(e.StartEvent? && e.gen.Generated?) ==> Apply(a, e).app.history == a.history
    ensures e.StartEvent? && e.gen.Generated? ==> |Apply(a, e).app.history| <= HistoryLimit
  {
  }

  /** Whatever happens, the history never holds more than ten entries. */
  lemma {:induction false} HistoryBounded(a: App, es: seq<Event>)
    requires |a.history| <= HistoryLimit
    ensures |Run(a, es).app.history| <= HistoryLimit
    decreases |es|
  {
    if |es| > 0 {
      ApplyHistory(a, es[0]);
      HistoryBounded(Apply(a, es[0]).app, es[1..]);
    }
  }

  /** The opponent record changes only by a verbatim copy of a received PROGRESS payload. */
  lemma OpponentOnlyFromProgress(a: App, e: Event)
    ensures Apply(a, e).app.opponent == a.opponent
         || (e.MessageEvent? && e.msg.Progress? && Apply(a, e).app.opponent == e.msg.state)
  {
    match e
    case StartEvent(gen, meta) =>
      assert Apply(a, e) == StartQuiz(a, gen, meta);
    case ReplayEvent(i) =>
      assert Apply(a, e) == ReplayHistory(a, i);
    case AnswerEvent(opt, idx) =>
      assert Apply(a, e) == Submit(a, opt, idx);
    case CooldownEvent =>
      assert Apply(a, e) == CooldownElapsed(a);
    case MessageEvent(m) =>
      assert Apply(a, e) == Receive(a, m);
    case _ =>
  }

  /** Only the start of a quiz sends INIT_QUIZ, and only an accepted answer sends PROGRESS. */
  lemma MessagesComeFromTheirHandlers(a: App, e: Event, m: MultiplayerMessage)
    requires m in Sent(Apply(a, e).effects)
    ensures m.InitQuiz? ==> e.StartEvent? && e.gen.Generated? && a.mode == Multi && a.conn
    ensures m.Progress? ==> e.AnswerEvent? && Accepts(a) && a.mode == Multi && a.conn
    ensures !m.NextReady?
  {
  }

  // ------------------------------------------------------- sound effects

  /** The sound controller after the effects are performed in order; messages
      leave it alone. */
  function Perform(c: Sound.Controller, effects: seq<Effect>): Sound.Controller
    decreases |effects|
  {
    if |effects| == 0 then c
    else
      var c1 := (match effects[0]
        case Send(_) => c
        case PlaySound(k) => Sound.Play(c, k)
        case StopBg => Sound.Stop(c)
        case UnlockAudio => Sound.Unlock(c));
      Perform(c1, effects[1..])
  }

  /** The home button's stop lasts only until the next touch: the root element's
      unlock resumes the rewound track, from the start, as the same element. */
  lemma HomeThenTouchResumesMusic(a: App, c: Sound.Controller)
    requires a.step != Auth && a.step != Home && a.step != Minigame
    requires c.bg.Some?
    ensures var o := Run(a, [HomeEvent, PointerDownEvent]);
            var t := Perform(c, o.effects);
            && o.app.step == Home
            && t.bg.Some? && t.bg.value.serial == c.bg.value.serial
            && !t.bg.value.paused && t.bg.value.position == 0
  {
    var es := [HomeEvent, PointerDownEvent];
    assert es[1..] == [PointerDownEvent] && es[1..][1..] == [];
    assert Run(a, es).effects == [StopBg, UnlockAudio];
    var c1 := Sound.Stop(c);
    assert Perform(c, [StopBg, UnlockAudio]) == Perform(c1, [UnlockAudio]);
    assert Perform(c1, [UnlockAudio]) == Sound.Unlock(c1);
  }
}

=== FILE: balloon.dfy ===
/** The integer state of the balloon mini-game (BalloonPopGame.tsx): the
    fifteen-second countdown, the list of balloons on screen, the popped counter
    and the one-shot music start. Balloon positions, sizes, colours and the
    movement timer are floating-point presentation and are not modelled; a
    balloon is its identifier. */
module Balloon {
  import opened Types
  import Sound

  /** What one countdown step asks for besides the new value: stop the
      background and play the win jingle, play a tick, or nothing. */
  datatype Signal = Finish | Tick | Quiet

  /** The reducer handed to `setTimeLeft` once per second. */
  function Countdown(prev: int): (r: (int, Signal))
    ensures r.0 >= 0
    ensures r.1 == Finish <==> prev <= 1
    ensures r.1 == Tick <==> 2 <= prev <= 6
    ensures prev <= 1 ==> r.0 == 0
    ensures prev > 1 ==> r.0 == prev - 1
  {
    if prev <= 1 then (0, Finish)
    else if prev <= 6 then (prev - 1, Tick)
    else (prev - 1, Quiet)
  }

  const StartTime: int := 15

  /** The counter after `n` seconds. */
  function After(t: int, n: nat): int
    decreases n
  {
    if n == 0 then t else After(Countdown(t).0, n - 1)
  }

  /** The number of tick signals in the first `n` seconds. */
  function TicksIn(t: int, n: nat): nat
    decreases n
  {
    if n == 0 then 0
    else (if Countdown(t).1 == Tick then 1 else 0) + TicksIn(Countdown(t).0, n - 1)
  }

  /** The number of finish signals in the first `n` seconds. */
  function FinishesIn(t: int, n: nat): nat
    decreases n
  {
    if n == 0 then 0
    else (if Countdown(t).1 == Finish then 1 else 0) + FinishesIn(Countdown(t).0, n - 1)
  }

  /** Before it runs out the counter goes down by exactly one per second. */
  lemma {:induction false} AfterCountsDown(t: int, n: nat)
    requires n <= t
    ensures After(t, n) == t - n
    decreases n
  {
    if n > 0 {
      AfterCountsDown(Countdown(t).0, n - 1);
    }
  }

  /** Once at zero the counter stays at zero. */
  lemma {:induction false} ZeroStays(n: nat)
    ensures After(0, n) == 0
    ensures FinishesIn(0, n) == n
    ensures TicksIn(0, n) == 0
    decreases n
  {
    if n > 0 {
      ZeroStays(n - 1);
    }
  }

  /** Sequential composition of seconds. */
  lemma {:induction false} AfterSplit(t: int, m: nat, n: nat)
    ensures After(t, m + n) == After(After(t, m), n)
    ensures TicksIn(t, m + n) == TicksIn(t, m) + TicksIn(After(t, m), n)
    ensures FinishesIn(t, m + n) == FinishesIn(t, m) + FinishesIn(After(t, m), n)
    decreases m
  {
    if m > 0 {
      AfterSplit(Countdown(t).0, m - 1, n);
    }
  }

  /** From a start of `t >= 1` seconds: exactly `t` seconds reach zero, with
      `min(t, 6) - 1` ticks and one finish on the way. */
  lemma {:induction false} FullCountdown(t: int)
    requires t >= 1
    ensures After(t, t) == 0
    ensures TicksIn(t, t) == (if t >= 6 then 5 else t - 1)
    ensures FinishesIn(t, t) == 1
    decreases t
  {
    if t == 1 {
      assert After(0, 0) == 0;
    } else {
      FullCountdown(t - 1);
    }
  }

  /** The mini-game's timer: zero after exactly fifteen seconds and not before,
      strictly decreasing until then, with five ticks on the way; every later
      second repeats the finish signal, since the timer is never cleared. */
  lemma GameTimer(n: nat)
    ensures n < StartTime ==> After(StartTime, n) == StartTime - n > 0
    ensures n < StartTime ==> After(StartTime, n + 1) < After(StartTime, n)
    ensures n >= StartTime ==> After(StartTime, n) == 0
    ensures TicksIn(StartTime, StartTime) == 5
    ensures n >= StartTime ==> FinishesIn(StartTime, n) == n - StartTime + 1
  {
    FullCountdown(StartTime);
    if n < StartTime {
      AfterCountsDown(StartTime, n);
      AfterCountsDown(StartTime, n + 1);
    } else {
      AfterSplit(StartTime, StartTime, n - StartTime);
      ZeroStays(n - StartTime);
    }
  }

  datatype Balloon = Balloon(id: int)

  datatype Game = Game(
    balloons: seq<Balloon>,
    poppedCount: int,
    timeLeft: int,
    hasStartedMusic: bool)

  /** The balloons whose identifier differs from `id`, in their original order. */
  function Without(bs: seq<Balloon>, id: int): (r: seq<Balloon>)
    ensures forall b :: b in r <==> b in bs && b.id != id
    ensures |r| <= |bs|
    decreases |bs|
  {
    if |bs| == 0 then []
    else if bs[0].id == id then Without(bs[1..], id)
    else [bs[0]] + Without(bs[1..], id)
  }

  /** Removal respects order: it distributes over concatenation. */
  lemma {:induction false} WithoutAppend(xs: seq<Balloon>, ys: seq<Balloon>, id: int)
    ensures Without(xs + ys, id) == Without(xs, id) + Without(ys, id)
    decreases |xs|
  {
    if |xs| > 0 {
      assert (xs + ys)[1..] == xs[1..] + ys;
      WithoutAppend(xs[1..], ys, id);
    } else {
      assert xs + ys == ys;
    }
  }

  /** Removing an absent identifier changes nothing. */
  lemma {:induction false} WithoutAbsent(bs: seq<Balloon>, id: int)
    requires forall i :: 0 <= i < |bs| ==> bs[i].id != id
    ensures Without(bs, id) == bs
    decreases |bs|
  {
    if |bs| > 0 {
      WithoutAbsent(bs[1..], id);
      assert [bs[0]] + bs[1..] == bs;
    }
  }

  /** Mounting: an empty sky, fifteen seconds, and the balloon music started. */
  function Mount(ctl: Sound.Controller): (r: (Game, Sound.Controller))
    requires Sound.Valid(ctl)
    ensures r.0.balloons == [] && r.0.poppedCount == 0
    ensures r.0.timeLeft == StartTime && !r.0.hasStartedMusic
    ensures r.1.bg.Some? && r.1.bg.value.kind == Sound.BalloonBg && !r.1.bg.value.paused
  {
    (Game([], 0, StartTime, false), Sound.Play(ctl, Sound.BalloonBg))
  }

  /** One second of the countdown, with its signal applied to the sound controller. */
  function TimerTick(g: Game, ctl: Sound.Controller): (r: (Game, Sound.Controller))
    ensures r.0 == g.(timeLeft := Countdown(g.timeLeft).0)
    ensures g.timeLeft <= 1 ==>
      r.1 == Sound.Play(Sound.Stop(ctl), Sound.WinSfx)
    ensures 2 <= g.timeLeft <= 6 ==> r.1 == Sound.Play(ctl, Sound.TickSfx)
    ensures g.timeLeft > 6 ==> r.1 == ctl
  {
    var (next, signal) := Countdown(g.timeLeft);
    var ctl' := match signal
      case Finish => Sound.Play(Sound.Stop(ctl), Sound.WinSfx)
      case Tick => Sound.Play(ctl, Sound.TickSfx)
      case Quiet => ctl;
    (g.(timeLeft := next), ctl')
  }

  /** A new balloon rises. The source's guard reads the `timeLeft` captured at
      mount, which is always fifteen, so spawning never stops. */
  function Spawn(g: Game, b: Balloon): (r: Game)
    ensures r.balloons == g.balloons + [b]
    ensures r.poppedCount == g.poppedCount && r.timeLeft == g.timeLeft
    ensures r.hasStartedMusic == g.hasStartedMusic
  {
    g.(balloons := g.balloons + [b])
  }

  /** Popping balloon `id`. */
  function Pop(g: Game, ctl: Sound.Controller, id: int): (r: (Game, Sound.Controller))
    ensures r.0.balloons == Without(g.balloons, id)
    ensures r.0.poppedCount == g.poppedCount + 1
    ensures r.0.timeLeft == g.timeLeft
    ensures r.0.hasStartedMusic
    ensures !g.hasStartedMusic ==>
      r.1 == Sound.Play(Sound.Play(Sound.Unlock(ctl), Sound.BalloonBg), Sound.PopSfx)
    ensures g.hasStartedMusic ==> r.1 == Sound.Play(ctl, Sound.PopSfx)
  {
    var ctl1 := if !g.hasStartedMusic then Sound.Play(Sound.Unlock(ctl), Sound.BalloonBg) else ctl;
    var ctl2 := Sound.Play(ctl1, Sound.PopSfx);
    var g' := g.(balloons := Without(g.balloons, id),
                 poppedCount := g.poppedCount + 1,
                 hasStartedMusic := true);
    (g', ctl2)
  }

  /** Unmounting stops the background: the track is paused and rewound, and the
      next background play of either kind builds a fresh track. */
  function Unmount(ctl: Sound.Controller): (r: Sound.Controller)
    ensures ctl.bg.Some? ==> r.bg.Some? && r.bg.value.paused && r.bg.value.position == 0
    ensures r.lastType.None? || ctl.bg.None?
    ensures Sound.Play(r, Sound.Bg).created == ctl.created + 1 || ctl.bg.None?
    ensures r.isMuted == ctl.isMuted && r.started == ctl.started
  {
    Sound.Stop(ctl)
  }

  /** The end overlay is on screen exactly when the counter is zero. */
  predicate ShowsOverlay(g: Game)
  {
    g.timeLeft == 0
  }

  /** The first pop leaves balloon music playing; later pops leave the track alone. */
  lemma FirstPopPlaysMusic(g: Game, ctl: Sound.Controller, id: int)
    requires Sound.Valid(ctl)
    requires !g.hasStartedMusic
    ensures Pop(g, ctl, id).1.bg.Some?
    ensures Pop(g, ctl, id).1.bg.value.kind == Sound.BalloonBg
    ensures !Pop(g, ctl, id).1.bg.value.paused
    ensures Pop(Pop(g, ctl, id).0, Pop(g, ctl, id).1, id).1.bg == Pop(g, ctl, id).1.bg
  {
  }

  /** Popping an identifier that is not on screen still counts, and the sky is unchanged. */
  lemma PopAbsentStillCounts(g: Game, ctl: Sound.Controller, id: int)
    requires forall i :: 0 <= i < |g.balloons| ==> g.balloons[i].id != id
    ensures Pop(g, ctl, id).0.balloons == g.balloons
    ensures Pop(g, ctl, id).0.poppedCount == g.poppedCount + 1
  {
    WithoutAbsent(g.balloons, id);
  }

  /** The game after `n` seconds, ignoring pops and spawns. */
  function Seconds(g: Game, ctl: Sound.Controller, n: nat): (Game, Sound.Controller)
    decreases n
  {
    if n == 0 then (g, ctl)
    else var (g', ctl') := TimerTick(g, ctl); Seconds(g', ctl', n - 1)
  }

  lemma {:induction false} SecondsTime(g: Game, ctl: Sound.Controller, n: nat)
    ensures Seconds(g, ctl, n).0.timeLeft == After(g.timeLeft, n)
    decreases n
  {
    if n > 0 {
      SecondsTime(TimerTick(g, ctl).0, TimerTick(g, ctl).1, n - 1);
    }
  }

  /** After mounting, the overlay appears exactly at the fifteenth second. */
  lemma OverlayAfterFifteen(ctl: Sound.Controller, n: nat)
    requires Sound.Valid(ctl)
    ensures ShowsOverlay(Seconds(Mount(ctl).0, Mount(ctl).1, n).0) <==> n >= StartTime
  {
    SecondsTime(Mount(ctl).0, Mount(ctl).1, n);
    GameTimer(n);
  }
}

=== FILE: decimal.dfy ===
/** Decimal rendering of integers, as JavaScript's `toString()` and template
    interpolation produce it for integral numbers below 10^21 in magnitude
    (larger ones switch to exponent form), with the parse that undoes it. */
module Decimal {

  predicate IsDigit(c: char)
  {
    '0' <= c <= '9'
  }

  predicate AllDigits(s: string)
  {
    forall i :: 0 <= i < |s| ==> IsDigit(s[i])
  }

  function DigitChar(d: nat): (c: char)
    requires d < 10
    ensures IsDigit(c)
    ensures (c == '0') == (d == 0)
  {
    ('0' as int + d) as char
  }

  function DigitValue(c: char): (d: nat)
    requires IsDigit(c)
    ensures d < 10
  {
    (c as int) - ('0' as int)
  }

  function Pow10(k: nat): (p: nat)
    ensures p >= 1
  {
    if k == 0 then 1 else 10 * Pow10(k - 1)
  }

  /** The shortest decimal rendering of `n`: digits only, and no leading zero
      unless `n` is zero itself. */
  function NatToString(n: nat): (s: string)
    ensures |s| >= 1
    ensures AllDigits(s)
    ensures (s[0] == '0') == (n == 0)
    ensures n == 0 ==> s == "0"
    decreases n
  {
    if n < 10 then [DigitChar(n)]
    else NatToString(n / 10) + [DigitChar(n % 10)]
  }

  /** Decimal rendering of any integer; negatives get a leading minus sign. */
  function IntToString(n: int): (s: string)
    ensures |s| >= 1
    ensures (s[0] == '-') == (n < 0)
    ensures n >= 0 ==> AllDigits(s)
  {
    if n < 0 then "-" + NatToString(-n) else NatToString(n)
  }

  /** The value of a digit string, most significant digit first. */
  function ParseDigits(s: string): nat
    requires AllDigits(s)
  {
    if |s| == 0 then 0
    else 10 * ParseDigits(s[..|s| - 1]) + DigitValue(s[|s| - 1])
  }

  /** Parsing undoes rendering. */
  lemma {:induction false} ParseRendered(n: nat)
    ensures ParseDigits(NatToString(n)) == n
    decreases n
  {
    var s := NatToString(n);
    if n >= 10 {
      ParseRendered(n / 10);
      assert s[..|s| - 1] == NatToString(n / 10);
    }
  }

  /** The rendering of `n` has exactly `k` characters when `n` has `k` decimal digits. */
  lemma {:induction false} RenderedLength(n: nat, k: nat)
    requires 1 <= k
    requires (k == 1 || Pow10(k - 1) <= n) && n < Pow10(k)
    ensures |NatToString(n)| == k
    decreases k
  {
    if k > 1 {
      assert n >= 10 by {
        Pow10AtLeastTen(k - 1);
      }
      assert Pow10(k) == 10 * Pow10(k - 1);
      if k - 1 > 1 {
        assert Pow10(k - 1) == 10 * Pow10(k - 2);
      }
      RenderedLength(n / 10, k - 1);
    } else {
      assert Pow10(1) == 10;
    }
  }

  lemma {:induction false} Pow10AtLeastTen(k: nat)
    requires k >= 1
    ensures Pow10(k) >= 10
    decreases k
  {
    if k > 1 {
      Pow10AtLeastTen(k - 1);
    }
  }

  /** Rendering is injective: two integers with the same rendering are equal. */
  lemma RenderingInjective(a: int, b: int)
    requires IntToString(a) == IntToString(b)
    ensures a == b
  {
    if a < 0 {
      assert IntToString(a)[1..] == NatToString(-a);
      assert IntToString(b)[1..] == NatToString(-b);
      ParseRendered(-a);
      ParseRendered(-b);
    } else {
      ParseRendered(a);
      ParseRendered(b);
    }
  }
}

=== FILE: duel.dfy ===
/** Two copies of the app playing a duel over one data connection. The
    transport is reduced to two first-in-first-out queues of messages in flight,
    one per direction; whatever one side's handler sends joins the queue towards
    the other side, and delivery runs the other side's message handler, in its
    corrected form `Receive`. */
module Duel {
  import opened Types
  import opened App
  import QuizRuns

  datatype Duel = Duel(
    host: App,
    guest: App,
    toGuest: seq<MultiplayerMessage>,
    toHost: seq<MultiplayerMessage>)

  /** The host handles one event; what it sends is queued behind what is already in flight. */
  function HostDo(d: Duel, e: Event): (r: Duel)
    ensures r.guest == d.guest && r.toHost == d.toHost
    ensures |r.toGuest| >= |d.toGuest| && r.toGuest[..|d.toGuest|] == d.toGuest
    // the host takes the handler's new state, and the new tail is what it sent
    ensures r.host == Apply(d.host, e).app
    ensures r.toGuest[|d.toGuest|..] == Sent(Apply(d.host, e).effects)
  {
    var o := Apply(d.host, e);
    d.(host := o.app, toGuest := d.toGuest + Sent(o.effects))
  }

  /** The guest handles one event, symmetrically. */
  function GuestDo(d: Duel, e: Event): (r: Duel)
    ensures r.host == d.host && r.toGuest == d.toGuest
    ensures |r.toHost| >= |d.toHost| && r.toHost[..|d.toHost|] == d.toHost
    ensures r.guest == Apply(d.guest, e).app
    ensures r.toHost[|d.toHost|..] == Sent(Apply(d.guest, e).effects)
  {
    var o := Apply(d.guest, e);
    d.(guest := o.app, toHost := d.toHost + Sent(o.effects))
  }

  /** The guest handles a sequence of events with nothing arriving in between;
      its messages are queued in the order they were sent. */
  function GuestRun(d: Duel, es: seq<Event>): (r: Duel)
    ensures r.host == d.host && r.toGuest == d.toGuest
    ensures |r.toHost| >= |d.toHost| && r.toHost[..|d.toHost|] == d.toHost
    ensures r.guest == Run(d.guest, es).app
    ensures r.toHost[|d.toHost|..] == Sent(Run(d.guest, es).effects)
  {
    var o := Run(d.guest, es);
    d.(guest := o.app, toHost := d.toHost + Sent(o.effects))
  }

  /** The oldest message towards the guest arrives. Handling a message sends
      nothing, so the other queue is untouched. */
  function DeliverToGuest(d: Duel): (r: Duel)
    ensures r.host == d.host && r.toHost == d.toHost
    ensures d.toGuest == [] ==> r == d
    ensures d.toGuest != [] ==> r.toGuest == d.toGuest[1..]
    // the guest takes what its handler makes of the oldest message
    ensures d.toGuest != [] ==> r.guest == Receive(d.guest, d.toGuest[0]).app
  {
    if d.toGuest == [] then d
    else d.(guest := Receive(d.guest, d.toGuest[0]).app, toGuest := d.toGuest[1..])
  }

  /** The oldest message towards the host arrives. */
  function DeliverToHost(d: Duel): (r: Duel)
    ensures r.guest == d.guest && r.toGuest == d.toGuest
    ensures d.toHost == [] ==> r == d
    ensures d.toHost != [] ==> r.toHost == d.toHost[1..]
    ensures d.toHost != [] ==> r.host == Receive(d.host, d.toHost[0]).app
  {
    if d.toHost == [] then d
    else d.(host := Receive(d.host, d.toHost[0]).app, toHost := d.toHost[1..])
  }

  /** Every message towards the host arrives, in order. */
  function DeliverAllToHost(d: Duel): (r: Duel)
    ensures r.toHost == [] && r.guest == d.guest && r.toGuest == d.toGuest
    decreases |d.toHost|
  {
    if d.toHost == [] then d else DeliverAllToHost(DeliverToHost(d))
  }

  predicate AllProgress(ms: seq<MultiplayerMessage>)
  {
    forall i :: 0 <= i < |ms| ==> ms[i].Progress?
  }

  /** The `INIT_QUIZ` hand-off: once a duelling host's quiz starts and its message
      arrives, both sides show the same questions under the same configuration,
      both on the quiz step, both from a fresh player with no timer armed. The
      handler as written would give the guest the same questions and step but
      leave its player and any armed timer as they were, so the guest starts
      fresh only in a first duel. */
  lemma InitHandOff(d: Duel, qs: seq<Question>, meta: EntryMeta)
    requires d.host.mode == Multi && d.host.conn && d.toGuest == []
    ensures var d1 := HostDo(d, StartEvent(Generated(qs), meta));
            d1.toGuest == [InitQuiz(qs, d.host.config)]
    ensures var d2 := DeliverToGuest(HostDo(d, StartEvent(Generated(qs), meta)));
            && d2.toGuest == []
            && d2.guest.questions == d2.host.questions == qs
            && d2.guest.config == d2.host.config == d.host.config
            && d2.guest.step == d2.host.step == Quiz
            && d2.guest.player == d2.host.player == FreshPlayer
            && d2.guest.pending == d2.host.pending == []
    ensures var g := ReceiveAsWritten(d.guest, InitQuiz(qs, d.host.config)).app;
            && g.questions == qs && g.config == d.host.config && g.step == Quiz
            && g.player == d.guest.player && g.pending == d.guest.pending
  {
    var o := Apply(d.host, StartEvent(Generated(qs), meta));
    assert o == StartQuiz(d.host, Generated(qs), meta);
    var d1 := HostDo(d, StartEvent(Generated(qs), meta));
    assert d1.toGuest == [InitQuiz(qs, d.host.config)];
    assert DeliverToGuest(d1).guest == Receive(d.guest, InitQuiz(qs, d.host.config)).app;
  }

  /** Without a duel connection a quiz start sends nothing to the other side. */
  lemma SoloStartSendsNothing(d: Duel, qs: seq<Question>, meta: EntryMeta)
    requires !(d.host.mode == Multi && d.host.conn)
    ensures HostDo(d, StartEvent(Generated(qs), meta)).toGuest == d.toGuest
  {
    var o := Apply(d.host, StartEvent(Generated(qs), meta));
    assert Sent(o.effects) == [];
  }

  /** A pick travels verbatim: after the guest's accepted answer arrives, the
      host's opponent record is the guest's new player state, and nothing else
      about the host changed. */
  lemma ProgressRoundTrip(d: Duel, opt: string, idx: int)
    requires d.guest.mode == Multi && d.guest.conn && Accepts(d.guest) && d.toHost == []
    ensures var d2 := DeliverToHost(GuestDo(d, AnswerEvent(opt, idx)));
            && d2.host == d.host.(opponent := d2.guest.player)
            && d2.host.opponent.isWaiting
            && d2.host.opponent.currentQuestionIndex == d.guest.player.currentQuestionIndex + 1
            && d2.toHost == []
  {
    var o := Apply(d.guest, AnswerEvent(opt, idx));
    assert o == Submit(d.guest, opt, idx);
    assert Sent(o.effects) == [Progress(o.app.player)];
    var d1 := GuestDo(d, AnswerEvent(opt, idx));
    assert d1.guest == o.app && d1.host == d.host;
    assert d1.toHost == [Progress(o.app.player)];
    var d2 := DeliverToHost(d1);
    assert d2.host == Receive(d.host, Progress(o.app.player)).app;
    assert Receive(d.host, Progress(o.app.player)).app == d.host.(opponent := o.app.player);
    assert d2.guest == o.app && d2.toHost == [];
  }

  /** A host already on the reward screen still follows the opponent and stays there. */
  lemma RewardHostFollowsOpponent(d: Duel, opt: string, idx: int)
    requires d.host.step == Reward
    requires d.guest.mode == Multi && d.guest.conn && Accepts(d.guest) && d.toHost == []
    ensures DeliverToHost(GuestDo(d, AnswerEvent(opt, idx))).host.step == Reward
    ensures DeliverToHost(GuestDo(d, AnswerEvent(opt, idx))).host.opponent
         == DeliverToHost(GuestDo(d, AnswerEvent(opt, idx))).guest.player
  {
    ProgressRoundTrip(d, opt, idx);
  }

  /** Last write wins: after a burst of PROGRESS messages arrives, the opponent
      record is the payload of the last one, and nothing else about the host changed. */
  lemma {:induction false} LastWriteWins(d: Duel)
    requires d.toHost != [] && AllProgress(d.toHost)
    ensures DeliverAllToHost(d).host == d.host.(opponent := d.toHost[|d.toHost| - 1].state)
    decreases |d.toHost|
  {
    var d1 := DeliverToHost(d);
    if |d.toHost| > 1 {
      assert d1.toHost == d.toHost[1..];
      LastWriteWins(d1);
    } else {
      assert d1.toHost == [];
    }
  }

  /** A duelling player who answers every question of a fresh quiz ends on the
      reward screen with one point per correct pick, having sent one `PROGRESS`
      per pick, the last of them carrying its final state. */
  lemma GuestPlaysThrough(g: App, opts: seq<string>)
    requires QuizRuns.QuizInv(g) && g.player == FreshPlayer
    requires |opts| == |g.questions| > 0 && g.mode == Multi && g.conn
    ensures var r := Run(g, QuizRuns.Answers(opts));
            && r.app.step == Reward && r.app.player.isFinished
            && r.app.player.currentQuestionIndex == |opts|
            && r.app.player.score == QuizRuns.CorrectCount(g.questions, 0, opts)
            && |Sent(r.effects)| == |opts| && AllProgress(Sent(r.effects))
            && Sent(r.effects)[|opts| - 1] == Progress(r.app.player)
  {
    QuizRuns.AnswersScore(g, opts);
    QuizRuns.AnswersSend(g, opts);
    QuizRuns.AnswersLastProgress(g, opts);
  }

  /** A five-question duel: the host starts, the guest answers all five, and once
      the guest's five PROGRESS messages have arrived the host sees the guest's
      final state, finished with one point per correct answer, while the host's
      own quiz is untouched. */
  lemma FiveQuestionDuel(d: Duel, qs: seq<Question>, meta: EntryMeta, opts: seq<string>)
    requires |qs| == 5 && |opts| == 5
    requires d.host.mode == Multi && d.host.conn && d.guest.mode == Multi && d.guest.conn
    requires d.toGuest == [] && d.toHost == []
    ensures var d1 := DeliverToGuest(HostDo(d, StartEvent(Generated(qs), meta)));
            var d2 := GuestRun(d1, QuizRuns.Answers(opts));
            var d3 := DeliverAllToHost(d2);
            && |d2.toHost| == 5
            && d3.guest.step == Reward
            && d3.guest.player.isFinished
            && d3.guest.player.currentQuestionIndex == 5
            && d3.guest.player.score == QuizRuns.CorrectCount(qs, 0, opts)
            && d3.host.opponent == d3.guest.player
            && d3.host.player == FreshPlayer && d3.host.step == Quiz && d3.host.questions == qs
  {
    var d1 := DeliverToGuest(HostDo(d, StartEvent(Generated(qs), meta)));
    InitHandOff(d, qs, meta);
    var g := d1.guest;
    QuizRuns.ReceiveInitEstablishes(d.guest, qs, d.host.config);
    assert g == Receive(d.guest, InitQuiz(qs, d.host.config)).app;
    var es := QuizRuns.Answers(opts);
    var r := Run(g, es);
    GuestPlaysThrough(g, opts);
    var d2 := GuestRun(d1, es);
    assert d2.guest == r.app && d2.host == d1.host;
    assert d2.toHost == Sent(r.effects);
    assert AllProgress(d2.toHost);
    LastWriteWins(d2);
    assert DeliverAllToHost(d2).guest == r.app;
  }
}

=== FILE: prompt.dfy ===
/** The instruction text sent with every quiz-generation request
    (`getSystemInstruction` in geminiService.ts). */
module Prompt {
  import opened Types
  import Decimal

  /** The description of a question kind, looked up by its wire string as the
      source compares it; any other string describes as empty. */
  function DescribeTag(tag: string): (d: string)
    ensures tag == TypeValue(MultipleChoice) ==> d == "Multiple Choice (4 options)"
    ensures tag == TypeValue(TrueFalse) ==> d == "True/False"
    ensures tag == TypeValue(FillBlanks) ==> d == "short Fill-in-the-blanks (one or two words maximum)"
    ensures d == "" <==> ParseType(tag).None?
  {
    if tag == TypeValue(MultipleChoice) then "Multiple Choice (4 options)"
    else if tag == TypeValue(TrueFalse) then "True/False"
    else if tag == TypeValue(FillBlanks) then "short Fill-in-the-blanks (one or two words maximum)"
    else ""
  }

  lemma CommaFree(a: string, b: string)
    requires ',' !in a && ',' !in b
    ensures ',' !in a + b
  {
  }

  function Describe(t: QuestionType): string
  {
    DescribeTag(TypeValue(t))
  }

  /** No description contains a comma, so none is cut by the separator. */
  lemma DescriptionCommaFree(t: QuestionType)
    ensures ',' !in Describe(t)
  {
    match t
    case MultipleChoice =>
      assert ',' !in "Multiple Choice (4 options)";
    case TrueFalse =>
      assert ',' !in "True/False";
    case FillBlanks =>
      CommaFree("short Fill-in-the-blanks", " (one or two words maximum)");
  }

  /** The English name of a language (the source's `langMap`). A name has no
      full stop, so in the instruction it runs up to the period after it. */
  function LanguageName(l: Language): (r: string)
    ensures |r| > 0 && '.' !in r
  {
    match l
    case Ar => "Arabic"
    case En => "English"
    case De => "German"
  }

  /** Distinct languages have distinct names. */
  lemma LanguageNameInjective(a: Language, b: Language)
    requires LanguageName(a) == LanguageName(b)
    ensures a == b
  {
  }

  /** `Array.prototype.join(", ")`: the pieces in order with the separator
      between neighbours; the first piece opens the text and the last closes it. */
  function Join(parts: seq<string>): (r: string)
    ensures |parts| == 0 ==> r == ""
    ensures |parts| > 0 ==> OccursAt(r, parts[0], 0)
    ensures |parts| > 0 ==> EndsWith(r, parts[|parts| - 1])
    ensures |r| + 2 == Offset(parts, |parts|) + 2 * |parts| || |parts| == 0
    decreases |parts|
  {
    if |parts| == 0 then ""
    else if |parts| == 1 then parts[0]
    else parts[0] + ", " + Join(parts[1..])
  }

  /** `String.prototype.split(", ")`: the separator cannot overlap itself, so
      cutting at each occurrence from the left is what the source does. */
  function Split(s: string): (r: seq<string>)
    ensures |r| >= 1
    decreases |s|
  {
    if |s| == 0 then [""]
    else if |s| >= 2 && s[0] == ',' && s[1] == ' ' then [""] + Split(s[2..])
    else
      var rest := Split(s[1..]);
      [[s[0]] + rest[0]] + rest[1..]
  }

  /** A comma-free piece splits to itself. */
  lemma {:induction false} SplitPlain(p: string)
    requires ',' !in p
    ensures Split(p) == [p]
    decreases |p|
  {
    if |p| > 0 {
      assert ',' !in p[1..] by {
        forall i | 0 <= i < |p[1..]| ensures p[1..][i] != ',' {
          assert p[1..][i] == p[i + 1];
        }
      }
      SplitPlain(p[1..]);
      assert [p[0]] + p[1..] == p;
    }
  }

  /** A comma-free piece followed by the separator splits off as one segment. */
  lemma {:induction false} SplitHead(p: string, t: string)
    requires ',' !in p
    ensures Split(p + ", " + t) == [p] + Split(t)
    decreases |p|
  {
    var s := p + ", " + t;
    if |p| == 0 {
      assert s == ", " + t;
      assert s[2..] == t;
    } else {
      assert p[0] != ',';
      assert ',' !in p[1..] by {
        forall i | 0 <= i < |p[1..]| ensures p[1..][i] != ',' {
          assert p[1..][i] == p[i + 1];
        }
      }
      assert s[1..] == p[1..] + ", " + t;
      SplitHead(p[1..], t);
      assert [p[0]] + p[1..] == p;
    }
  }

  /** Splitting undoes joining when no piece contains a comma: the joined text
      has exactly as many segments as pieces, in the same order. */
  lemma {:induction false} SplitJoin(parts: seq<string>)
    requires |parts| >= 1
    requires forall i :: 0 <= i < |parts| ==> ',' !in parts[i]
    ensures Split(Join(parts)) == parts
    decreases |parts|
  {
    if |parts| == 1 {
      SplitPlain(parts[0]);
    } else {
      SplitJoin(parts[1..]);
      SplitHead(parts[0], Join(parts[1..]));
      assert [parts[0]] + parts[1..] == parts;
    }
  }

  /** The descriptions of the allowed kinds, in order. */
  function Descriptions(kinds: seq<QuestionType>): (r: seq<string>)
    ensures |r| == |kinds|
    ensures forall i :: 0 <= i < |kinds| ==> r[i] == Describe(kinds[i])
  {
    seq(|kinds|, i requires 0 <= i < |kinds| => Describe(kinds[i]))
  }

  /** The `typesDesc` string of the source: no kinds describe as the empty
      string, and the first kind's description opens the text. */
  function TypesDescription(kinds: seq<QuestionType>): (r: string)
    ensures |kinds| == 0 ==> r == ""
    ensures |kinds| > 0 ==> OccursAt(r, Describe(kinds[0]), 0)
    ensures |kinds| == 1 ==> r == Describe(kinds[0])
  {
    Join(Descriptions(kinds))
  }

  /** The description list has one segment per allowed kind, each the fixed
      description of that kind, in the order of `allowedTypes`. */
  lemma TypesDescriptionSegments(kinds: seq<QuestionType>)
    requires |kinds| >= 1
    ensures |Split(TypesDescription(kinds))| == |kinds|
    ensures forall i :: 0 <= i < |kinds| ==> Split(TypesDescription(kinds))[i] == Describe(kinds[i])
  {
    var ds := Descriptions(kinds);
    forall i | 0 <= i < |ds| ensures ',' !in ds[i] {
      DescriptionCommaFree(kinds[i]);
    }
    SplitJoin(Descriptions(kinds));
  }

  const Line1: string := "You are an educational expert. Generate a quiz with exactly "
  const Line2: string := " questions.\n  Difficulty Level: "
  const Line3: string := ". \n  Language: "
  const Line4: string := ".\n  Ensure the questions are engaging for children.\n  Allowed question types: "
  const Line5: string := ".\n  Strictly return only the JSON array."

  /** The pieces of the instruction in order: the five fixed lines with the
      count, difficulty string, language name and type descriptions between them. */
  function Pieces(c: QuizConfig): (ps: seq<string>)
    ensures |ps| == 9
  {
    [Line1, Decimal.IntToString(c.count), Line2, DifficultyName(c.difficulty),
     Line3, LanguageName(c.language), Line4, TypesDescription(c.allowedTypes), Line5]
  }

  function Concat(ps: seq<string>): string
    decreases |ps|
  {
    if |ps| == 0 then "" else ps[0] + Concat(ps[1..])
  }

  /** The instruction: the template literal, that is, its pieces concatenated.
      It opens with the expert line and ends with the demand for the bare JSON array. */
  function SystemInstruction(c: QuizConfig): (r: string)
    ensures OccursAt(r, Line1, 0)
    ensures EndsWith(r, Line5)
  {
    var ps := Pieces(c);
    ConcatFrame(ps);
    Concat(ps)
  }

  /** `t` is the end of `s`. */
  predicate EndsWith(s: string, t: string)
  {
    |t| <= |s| && s[|s| - |t|..] == t
  }

  /** The first piece opens the concatenation and the last closes it. */
  lemma ConcatFrame(ps: seq<string>)
    requires |ps| > 0
    ensures OccursAt(Concat(ps), ps[0], 0)
    ensures EndsWith(Concat(ps), ps[|ps| - 1])
    ensures |Concat(ps)| == Offset(ps, |ps|)
  {
    PieceAt(ps, 0);
    PieceAt(ps, |ps| - 1);
    ConcatLength(ps);
    OffsetLast(ps, |ps| - 1);
  }

  /** The concatenation is as long as all pieces together. */
  lemma {:induction false} ConcatLength(ps: seq<string>)
    ensures |Concat(ps)| == Offset(ps, |ps|)
    decreases |ps|
  {
    if |ps| > 0 {
      ConcatLength(ps[1..]);
    }
  }

  /** Adding one more piece adds its length to the offset. */
  lemma {:induction false} OffsetLast(ps: seq<string>, k: nat)
    requires k < |ps|
    ensures Offset(ps, k + 1) == Offset(ps, k) + |ps[k]|
    decreases k
  {
    if k > 0 {
      OffsetLast(ps[1..], k - 1);
    }
  }

  /** `t` occurs in `s` starting at position `i`. */
  predicate OccursAt(s: string, t: string, i: int)
  {
    0 <= i && i + |t| <= |s| && s[i..i + |t|] == t
  }

  lemma OccursAtFront(t: string, x: string)
    ensures OccursAt(t + x, t, 0)
  {
    assert (t + x)[0..|t|] == t;
  }

  lemma OccursShift(a: string, s: string, t: string, i: int)
    requires OccursAt(s, t, i)
    ensures OccursAt(a + s, t, |a| + i)
  {
    assert (a + s)[|a| + i..|a| + i + |t|] == s[i..i + |t|];
  }

  /** The total length of the first `k` pieces. */
  function Offset(ps: seq<string>, k: nat): nat
    requires k <= |ps|
    decreases k
  {
    if k == 0 then 0 else |ps[0]| + Offset(ps[1..], k - 1)
  }

  /** Each piece sits in the concatenation at the total length of the pieces before it. */
  lemma {:induction false} PieceAt(ps: seq<string>, k: nat)
    requires k < |ps|
    ensures OccursAt(Concat(ps), ps[k], Offset(ps, k))
    decreases k
  {
    if k == 0 {
      OccursAtFront(ps[0], Concat(ps[1..]));
    } else {
      PieceAt(ps[1..], k - 1);
      OccursShift(ps[0], Concat(ps[1..]), ps[k], Offset(ps[1..], k - 1));
    }
  }

  /** The instruction carries the count, the difficulty string, the language
      name and the type descriptions verbatim, each right after its fixed line. */
  lemma InstructionCarriesConfig(c: QuizConfig)
    ensures var ps := Pieces(c);
            var s := SystemInstruction(c);
            && OccursAt(s, Decimal.IntToString(c.count), Offset(ps, 1))
            && OccursAt(s, DifficultyName(c.difficulty), Offset(ps, 3))
            && OccursAt(s, LanguageName(c.language), Offset(ps, 5))
            && OccursAt(s, TypesDescription(c.allowedTypes), Offset(ps, 7))
    ensures Offset(Pieces(c), 1) == |Line1|
  {
    var ps := Pieces(c);
    PieceAt(ps, 1);
    PieceAt(ps, 3);
    PieceAt(ps, 5);
    PieceAt(ps, 7);
  }

  predicate Numeric(ch: char)
  {
    Decimal.IsDigit(ch) || ch == '-'
  }

  /** The longest prefix of sign and digit characters. */
  function TakeNumeric(s: string): (r: string)
    ensures |r| <= |s|
    decreases |s|
  {
    if |s| == 0 || !Numeric(s[0]) then "" else [s[0]] + TakeNumeric(s[1..])
  }

  lemma {:induction false} TakeNumericPrefix(u: string, rest: string)
    requires forall i :: 0 <= i < |u| ==> Numeric(u[i])
    requires |rest| > 0 && !Numeric(rest[0])
    ensures TakeNumeric(u + rest) == u
    decreases |u|
  {
    if |u| == 0 {
      assert u + rest == rest;
    } else {
      assert (u + rest)[0] == u[0];
      assert (u + rest)[1..] == u[1..] + rest;
      TakeNumericPrefix(u[1..], rest);
      assert [u[0]] + u[1..] == u;
    }
  }

  lemma RenderingNumeric(n: int)
    ensures forall i :: 0 <= i < |Decimal.IntToString(n)| ==> Numeric(Decimal.IntToString(n)[i])
  {
    var s := Decimal.IntToString(n);
    if n < 0 {
      var m := Decimal.NatToString(-n);
      assert s == "-" + m;
      forall i | 0 <= i < |s| ensures Numeric(s[i]) {
        if i > 0 {
          assert s[i] == m[i - 1];
        }
      }
    }
  }

  /** The count as it appears in an instruction: the numeric run after the first line. */
  function CountText(s: string): string
  {
    if |s| < |Line1| then "" else TakeNumeric(s[|Line1|..])
  }

  /** In a concatenation that opens with the first line, a numeric piece right
      after it, stopped by a non-numeric character, is what `CountText` reads. */
  lemma NumericAfterFirst(ps: seq<string>)
    requires |ps| >= 3 && ps[0] == Line1
    requires forall i :: 0 <= i < |ps[1]| ==> Numeric(ps[1][i])
    requires |ps[2]| > 0 && !Numeric(ps[2][0])
    ensures CountText(Concat(ps)) == ps[1]
  {
    var r2 := Concat(ps[2..]);
    assert ps[1..][1..] == ps[2..];
    assert Concat(ps[1..]) == ps[1] + r2;
    assert Concat(ps) == Line1 + (ps[1] + r2);
    assert Concat(ps)[|Line1|..] == ps[1] + r2;
    assert r2 == ps[2] + Concat(ps[2..][1..]);
    assert r2[0] == ps[2][0];
    TakeNumericPrefix(ps[1], r2);
  }

  /** The count can be read back from the instruction. */
  lemma CountReadBack(c: QuizConfig)
    ensures CountText(SystemInstruction(c)) == Decimal.IntToString(c.count)
  {
    var ps := Pieces(c);
    assert SystemInstruction(c) == Concat(ps);
    assert ps[0] == Line1 && ps[1] == Decimal.IntToString(c.count);
    RenderingNumeric(c.count);
    assert ps[2][0] == ' ';
    NumericAfterFirst(ps);
  }

  /** Two configurations with different counts give different instructions. */
  lemma InstructionDeterminesCount(a: QuizConfig, b: QuizConfig)
    requires SystemInstruction(a) == SystemInstruction(b)
    ensures a.count == b.count
  {
    CountReadBack(a);
    CountReadBack(b);
    Decimal.RenderingInjective(a.count, b.count);
  }
}

=== FILE: quiz_runs.dfy ===
/** Properties of runs of the quiz: what answering, the feedback timer and
    incoming progress messages do to the player's counters over whole event
    sequences; the locked-guest defect of the `INIT_QUIZ` handler, and the
    feedback timer that a new quiz does not cancel. */
module QuizRuns {
  import opened Types
  import opened App

  /** The events that happen while a quiz is on screen. */
  predicate QuizEvent(e: Event)
  {
    e.AnswerEvent? || e.CooldownEvent? || (e.MessageEvent? && !e.msg.InitQuiz?) || e.PointerDownEvent?
  }

  predicate AllQuizEvents(es: seq<Event>)
  {
    forall i :: 0 <= i < |es| ==> QuizEvent(es[i])
  }

  /** What holds of a quiz in progress: the score never passes the index, the
      index never passes the question count, the player is finished exactly
      when the index reached a nonzero count, at most one timer is armed and it
      holds the current state, and the reward screen is up exactly when the
      player finished and the last timer fired. */
  predicate QuizInv(a: App)
  {
    var p := a.player;
    && 0 <= p.score <= p.currentQuestionIndex <= |a.questions|
    && (p.isFinished <==> 0 < p.currentQuestionIndex == |a.questions|)
    && (p.isFinished ==> p.isWaiting)
    && |a.pending| <= 1
    && (|a.pending| == 1 ==> a.pending[0] == Cooldown(p, p.isFinished) && p.isWaiting)
    && (p.isWaiting && a.pending == [] ==> p.isFinished)
    && (a.step == Quiz || a.step == Reward)
    && (a.step == Reward <==> p.isFinished && a.pending == [])
  }

  /** A successful start establishes the invariant, whatever timer the last
      quiz left armed. */
  lemma StartEstablishes(a: App, qs: seq<Question>, meta: EntryMeta)
    ensures QuizInv(StartQuiz(a, Generated(qs), meta).app)
  {
  }

  /** So does replaying a history entry, whatever timer the last quiz left armed. */
  lemma ReplayEstablishes(a: App, i: int)
    requires a.step == History && 0 <= i < |a.history|
    ensures QuizInv(ReplayHistory(a, i).app)
  {
  }

  /** So does receiving `INIT_QUIZ`, with the receiver's player reset and its
      timer cancelled, whatever state the receiver was in. */
  lemma ReceiveInitEstablishes(a: App, qs: seq<Question>, cfg: QuizConfig)
    ensures QuizInv(Receive(a, InitQuiz(qs, cfg)).app)
  {
  }

  lemma QuizEventKeepsInv(a: App, e: Event)
    requires QuizInv(a) && QuizEvent(e)
    ensures QuizInv(Apply(a, e).app)
    ensures Apply(a, e).app.questions == a.questions
    ensures Apply(a, e).app.mode == a.mode && Apply(a, e).app.conn == a.conn
  {
    match e
    case AnswerEvent(opt, idx) =>
      assert Apply(a, e) == Submit(a, opt, idx);
    case CooldownEvent =>
      assert Apply(a, e) == CooldownElapsed(a);
    case MessageEvent(m) =>
      assert Apply(a, e) == ReceiveAsWritten(a, m);
    case PointerDownEvent =>
      assert Apply(a, e) == PointerDown(a);
  }

  /** The invariant holds after every event of a quiz run. */
  lemma {:induction false} QuizRunKeepsInv(a: App, es: seq<Event>)
    requires QuizInv(a) && AllQuizEvents(es)
    ensures QuizInv(Run(a, es).app)
    ensures Run(a, es).app.questions == a.questions
    ensures Run(a, es).app.mode == a.mode && Run(a, es).app.conn == a.conn
    decreases |es|
  {
    if |es| > 0 {
      QuizEventKeepsInv(a, es[0]);
      QuizRunKeepsInv(Apply(a, es[0]).app, es[1..]);
    }
  }

  /** In a running quiz with questions, a player who is not waiting always has a
      current question: the source's lookup past the end cannot happen. */
  lemma ReadyMeansAccepted(a: App)
    requires QuizInv(a) && |a.questions| > 0 && !a.player.isWaiting
    ensures Accepts(a)
  {
  }

  /** Once finished, every later quiz event leaves the player's counters alone
      and sends nothing: the wait is never lifted again. */
  lemma {:induction false} FinishedIsFinal(a: App, es: seq<Event>)
    requires QuizInv(a) && a.player.isFinished && AllQuizEvents(es)
    ensures Run(a, es).app.player == a.player
    ensures Sent(Run(a, es).effects) == []
    decreases |es|
  {
    if |es| > 0 {
      QuizEventKeepsInv(a, es[0]);
      var first := Apply(a, es[0]);
      assert Sent(first.effects) == [];
      assert first.app.player == a.player;
      FinishedIsFinal(first.app, es[1..]);
      SentAppend(first.effects, Run(first.app, es[1..]).effects);
    }
  }

  // ------------------------------------------------------------- scoring

  /** How many of the answers match the correct answer of the questions from `from` on. */
  function CorrectCount(qs: seq<Question>, from: nat, opts: seq<string>): nat
    requires from + |opts| <= |qs|
    decreases |opts|
  {
    if |opts| == 0 then 0
    else (if opts[0] == qs[from].correctAnswer then 1 else 0) + CorrectCount(qs, from + 1, opts[1..])
  }

  /** Picking each option in turn, each followed by its feedback timer. */
  function Answers(opts: seq<string>): (es: seq<Event>)
    ensures |es| == 2 * |opts|
    ensures AllQuizEvents(es)
    decreases |opts|
  {
    if |opts| == 0 then [] else [AnswerEvent(opts[0], 0), CooldownEvent] + Answers(opts[1..])
  }

  /** Two events in front of a run. */
  lemma RunTwo(a: App, e1: Event, e2: Event, rest: seq<Event>)
    ensures Run(a, [e1, e2] + rest)
         == var o1 := Apply(a, e1);
            var o2 := Apply(o1.app, e2);
            var o3 := Run(o2.app, rest);
            Outcome(o3.app, o1.effects + (o2.effects + o3.effects))
  {
    var es := [e1, e2] + rest;
    assert es[0] == e1 && es[1..] == [e2] + rest;
    assert es[1..][0] == e2 && es[1..][1..] == rest;
  }

  /** The state after two events in front of a run. */
  lemma RunTwoApp(a: App, e1: Event, e2: Event, rest: seq<Event>)
    ensures Run(a, [e1, e2] + rest).app == Run(Apply(Apply(a, e1).app, e2).app, rest).app
  {
    RunTwo(a, e1, e2, rest);
  }

  /** One pick followed by its timer: the counters. */
  lemma AnswerStep(a: App, opt: string)
    requires QuizInv(a) && !a.player.isWaiting
    requires a.player.currentQuestionIndex < |a.questions|
    ensures var c := Apply(Apply(a, AnswerEvent(opt, 0)).app, CooldownEvent).app;
            var i := a.player.currentQuestionIndex;
            && QuizInv(c)
            && c.questions == a.questions && c.mode == a.mode && c.conn == a.conn
            && c.player.score == a.player.score + (if opt == a.questions[i].correctAnswer then 1 else 0)
            && c.player.currentQuestionIndex == i + 1
            && c.player.isFinished == (i + 1 == |a.questions|)
            && c.player.isWaiting == c.player.isFinished
            && c.step == (if c.player.isFinished then Reward else a.step)
  {
    var s := Apply(a, AnswerEvent(opt, 0));
    assert s == Submit(a, opt, 0);
    QuizEventKeepsInv(a, AnswerEvent(opt, 0));
    assert Apply(s.app, CooldownEvent) == CooldownElapsed(s.app);
    QuizEventKeepsInv(s.app, CooldownEvent);
  }

  /** One pick followed by its timer: the messages. */
  lemma AnswerStepSend(a: App, opt: string)
    requires QuizInv(a) && !a.player.isWaiting
    requires a.player.currentQuestionIndex < |a.questions|
    ensures var s := Apply(a, AnswerEvent(opt, 0));
            var c := Apply(s.app, CooldownEvent);
            && |Sent(s.effects + c.effects)| == (if a.mode == Multi && a.conn then 1 else 0)
            && (forall m :: m in Sent(s.effects + c.effects) ==> m.Progress?)
  {
    var s := Apply(a, AnswerEvent(opt, 0));
    var c := Apply(s.app, CooldownEvent);
    QuizEventKeepsInv(a, AnswerEvent(opt, 0));
    SentAppend(s.effects, c.effects);
  }

  /** Answering: the score grows by the number of correct picks, the index by the
      number of picks, and the player finishes exactly on the last question. */
  lemma {:induction false} AnswersScore(a: App, opts: seq<string>)
    requires QuizInv(a) && !a.player.isWaiting
    requires a.player.currentQuestionIndex + |opts| <= |a.questions|
    ensures var r := Run(a, Answers(opts)).app;
            && r.player.score
               == a.player.score + CorrectCount(a.questions, a.player.currentQuestionIndex, opts)
            && r.player.currentQuestionIndex == a.player.currentQuestionIndex + |opts|
            && (r.player.isFinished
                <==> (|opts| > 0 && a.player.currentQuestionIndex + |opts| == |a.questions|))
            && r.step == (if r.player.isFinished then Reward else a.step)
    decreases |opts|
  {
    if |opts| > 0 {
      var i := a.player.currentQuestionIndex;
      var c := Apply(Apply(a, AnswerEvent(opts[0], 0)).app, CooldownEvent);
      assert Answers(opts) == [AnswerEvent(opts[0], 0), CooldownEvent] + Answers(opts[1..]);
      RunTwoApp(a, AnswerEvent(opts[0], 0), CooldownEvent, Answers(opts[1..]));
      assert Run(a, Answers(opts)).app == Run(c.app, Answers(opts[1..])).app;
      AnswerStep(a, opts[0]);
      assert CorrectCount(a.questions, i, opts)
          == (if opts[0] == a.questions[i].correctAnswer then 1 else 0)
             + CorrectCount(a.questions, i + 1, opts[1..]);
      if |opts| > 1 {
        AnswersScore(c.app, opts[1..]);
      } else {
        assert opts[1..] == [];
        assert Run(c.app, Answers(opts[1..])).app == c.app;
      }
    }
  }

  /** Answering over a connection in a duel sends one PROGRESS per pick, and
      nothing else; otherwise nothing is sent. */
  lemma {:induction false} AnswersSend(a: App, opts: seq<string>)
    requires QuizInv(a) && !a.player.isWaiting
    requires a.player.currentQuestionIndex + |opts| <= |a.questions|
    ensures var r := Run(a, Answers(opts));
            && |Sent(r.effects)| == (if a.mode == Multi && a.conn then |opts| else 0)
            && (forall m :: m in Sent(r.effects) ==> m.Progress?)
    decreases |opts|
  {
    if |opts| > 0 {
      var s := Apply(a, AnswerEvent(opts[0], 0));
      var c := Apply(s.app, CooldownEvent);
      var tail := Run(c.app, Answers(opts[1..]));
      assert Answers(opts) == [AnswerEvent(opts[0], 0), CooldownEvent] + Answers(opts[1..]);
      RunTwo(a, AnswerEvent(opts[0], 0), CooldownEvent, Answers(opts[1..]));
      AnswerStep(a, opts[0]);
      AnswerStepSend(a, opts[0]);
      SentAppend(s.effects, c.effects + tail.effects);
      SentAppend(c.effects, tail.effects);
      SentAppend(s.effects, c.effects);
      if |opts| > 1 {
        AnswersSend(c.app, opts[1..]);
      } else {
        assert opts[1..] == [];
      }
    }
  }

  /** The last pick and its timer: one PROGRESS carrying the state the player is
      left in, since the finishing timer does not touch the player. */
  lemma LastAnswerStep(a: App, opt: string)
    requires QuizInv(a) && !a.player.isWaiting
    requires a.player.currentQuestionIndex + 1 == |a.questions|
    requires a.mode == Multi && a.conn
    ensures var s := Apply(a, AnswerEvent(opt, 0));
            var c := Apply(s.app, CooldownEvent);
            Sent(s.effects) == [Progress(c.app.player)] && Sent(c.effects) == []
  {
    var s := Submit(a, opt, 0);
    assert Apply(a, AnswerEvent(opt, 0)) == s;
    assert a.pending == [];
    assert s.app.pending == [Cooldown(s.app.player, true)];
    assert Apply(s.app, CooldownEvent) == CooldownElapsed(s.app);
  }

  /** On the last question, the final PROGRESS sent carries exactly the state the
      player is left in. */
  lemma {:induction false} AnswersLastProgress(a: App, opts: seq<string>)
    requires QuizInv(a) && !a.player.isWaiting && |opts| > 0
    requires a.player.currentQuestionIndex + |opts| == |a.questions|
    requires a.mode == Multi && a.conn
    ensures var r := Run(a, Answers(opts));
            && Sent(r.effects) != []
            && Sent(r.effects)[|Sent(r.effects)| - 1] == Progress(r.app.player)
    decreases |opts|
  {
    var s := Apply(a, AnswerEvent(opts[0], 0));
    var c := Apply(s.app, CooldownEvent);
    var tail := Run(c.app, Answers(opts[1..]));
    assert Answers(opts) == [AnswerEvent(opts[0], 0), CooldownEvent] + Answers(opts[1..]);
    RunTwo(a, AnswerEvent(opts[0], 0), CooldownEvent, Answers(opts[1..]));
    SentAppend(s.effects, c.effects + tail.effects);
    SentAppend(c.effects, tail.effects);
    if |opts| == 1 {
      LastAnswerStep(a, opts[0]);
      assert opts[1..] == [];
    } else {
      AnswerStep(a, opts[0]);
      AnswersLastProgress(c.app, opts[1..]);
    }
  }

  /** From a fresh player: the score is the number of correct answers, never more
      than the question count, and the index is the number of answers. */
  lemma FreshRunScore(a: App, opts: seq<string>)
    requires a.player == FreshPlayer && a.pending == [] && a.step == Quiz
    requires |opts| <= |a.questions|
    ensures Run(a, Answers(opts)).app.player.score == CorrectCount(a.questions, 0, opts)
    ensures CorrectCount(a.questions, 0, opts) <= |opts| <= |a.questions|
    ensures Run(a, Answers(opts)).app.player.currentQuestionIndex == |opts|
  {
    AnswersScore(a, opts);
    QuizRunKeepsInv(a, Answers(opts));
  }

  /** Three questions, the first answered correctly and the second wrongly: after
      two answers the score is one and the quiz runs on; the third answer
      finishes it, adding one more point only if it is correct. */
  lemma ScenarioThreeQuestions(a: App, wrong: string, last: string)
    requires a.player == FreshPlayer && a.pending == [] && a.step == Quiz
    requires |a.questions| == 3
    requires wrong != a.questions[1].correctAnswer
    ensures Run(a, Answers([a.questions[0].correctAnswer, wrong])).app.player.score == 1
    ensures !Run(a, Answers([a.questions[0].correctAnswer, wrong])).app.player.isFinished
    ensures Run(a, Answers([a.questions[0].correctAnswer, wrong, last])).app.player.isFinished
    ensures Run(a, Answers([a.questions[0].correctAnswer, wrong, last])).app.player.score
         == 1 + (if last == a.questions[2].correctAnswer then 1 else 0)
    ensures Run(a, Answers([a.questions[0].correctAnswer, wrong, last])).app.step == Reward
  {
    var c0 := a.questions[0].correctAnswer;
    var qs := a.questions;
    assert [c0, wrong][1..] == [wrong] && [wrong][1..] == [];
    assert [c0, wrong, last][1..] == [wrong, last] && [wrong, last][1..] == [last] && [last][1..] == [];
    assert CorrectCount(qs, 2, []) == 0;
    assert CorrectCount(qs, 1, [wrong]) == 0;
    assert CorrectCount(qs, 0, [c0, wrong]) == 1;
    assert CorrectCount(qs, 2, [last]) == (if last == qs[2].correctAnswer then 1 else 0);
    assert CorrectCount(qs, 1, [wrong, last]) == CorrectCount(qs, 2, [last]);
    AnswersScore(a, [c0, wrong]);
    AnswersScore(a, [c0, wrong, last]);
  }

  // ------------------------------------------------- the locked-guest defect

  /** As written, a receiver whose player is still waiting (as every player is
      after finishing a quiz) gets the new questions but can never answer them:
      every answer is rejected and nothing is sent. */
  lemma {:induction false} AsWrittenGuestStaysLocked(a: App, qs: seq<Question>, cfg: QuizConfig, es: seq<Event>)
    requires a.player.isWaiting && a.pending == []
    requires AllQuizEvents(es)
    ensures ReceiveAsWritten(a, InitQuiz(qs, cfg)).app.step == Quiz
    ensures ReceiveAsWritten(a, InitQuiz(qs, cfg)).app.questions == qs
    ensures Run(ReceiveAsWritten(a, InitQuiz(qs, cfg)).app, es).app.player == a.player
    ensures Sent(Run(ReceiveAsWritten(a, InitQuiz(qs, cfg)).app, es).effects) == []
  {
    LockedStaysLocked(ReceiveAsWritten(a, InitQuiz(qs, cfg)).app, es);
  }

  lemma {:induction false} LockedStaysLocked(b: App, es: seq<Event>)
    requires b.player.isWaiting && b.pending == []
    requires AllQuizEvents(es)
    ensures Run(b, es).app.player == b.player && Run(b, es).app.pending == []
    ensures Sent(Run(b, es).effects) == []
    decreases |es|
  {
    if |es| > 0 {
      var first := Apply(b, es[0]);
      assert first.app.player == b.player && first.app.pending == [];
      assert Sent(first.effects) == [];
      LockedStaysLocked(first.app, es[1..]);
      SentAppend(first.effects, Run(first.app, es[1..]).effects);
    }
  }

  /** The waiting player is what a finished quiz leaves behind: once the last
      question of any running quiz is answered, the player is finished and still
      waiting, with no timer left to lift the wait. */
  lemma FinishedQuizLeavesPlayerWaiting(a: App, opts: seq<string>)
    requires QuizInv(a) && !a.player.isWaiting && |opts| > 0
    requires a.player.currentQuestionIndex + |opts| == |a.questions|
    ensures Run(a, Answers(opts)).app.player.isFinished
    ensures Run(a, Answers(opts)).app.player.isWaiting
    ensures Run(a, Answers(opts)).app.pending == []
    ensures Run(a, Answers(opts)).app.step == Reward
  {
    AnswersScore(a, opts);
    QuizRunKeepsInv(a, Answers(opts));
  }

  /** With the player reset on `INIT_QUIZ`, the receiver of a nonempty question
      set can answer at once, whatever it played before. */
  lemma CorrectedGuestCanAnswer(a: App, qs: seq<Question>, cfg: QuizConfig, opt: string, idx: int)
    requires |qs| > 0
    ensures Accepts(Receive(a, InitQuiz(qs, cfg)).app)
    ensures Submit(Receive(a, InitQuiz(qs, cfg)).app, opt, idx).app.player.currentQuestionIndex == 1
    ensures QuizInv(Submit(Receive(a, InitQuiz(qs, cfg)).app, opt, idx).app)
  {
    ReceiveInitEstablishes(a, qs, cfg);
    QuizEventKeepsInv(Receive(a, InitQuiz(qs, cfg)).app, AnswerEvent(opt, idx));
  }

  // ------------------------------------------------ the uncancelled timer

  /** As written, the feedback timer of a pick is never cancelled. Leaving for
      home, opening the history and replaying an entry before it fires does not
      stop it: when it fires, the previous quiz's player, with the wait lifted,
      overwrites the replay's fresh player, one question further on. */
  lemma StaleTimerOverwritesReplay(a: App, opt: string)
    requires QuizInv(a) && a.step == Quiz && !a.player.isWaiting
    requires a.player.currentQuestionIndex + 1 < |a.questions|
    requires |a.history| > 0
    ensures var s := Submit(a, opt, 0).app;
            var h := OpenHistory(HomeButton(s).app).app;
            var r := ReplayHistoryAsWritten(h, 0).app;
            var t := CooldownElapsed(r).app;
            && r.player == FreshPlayer && r.step == Quiz && r.questions == a.history[0].questions
            && t.player == s.player.(isWaiting := false)
            && t.player.currentQuestionIndex == a.player.currentQuestionIndex + 1
            && t.player != FreshPlayer
            && t.questions == a.history[0].questions
  {
    var s := Submit(a, opt, 0).app;
    assert s.pending == [Cooldown(s.player, false)];
  }

  /** The same race through a received `INIT_QUIZ`: as written, a timer armed by
      the receiver's own last pick fires into the new quiz and replaces the
      player with the previous quiz's. */
  lemma StaleTimerOverwritesInit(a: App, opt: string, qs: seq<Question>, cfg: QuizConfig)
    requires QuizInv(a) && a.step == Quiz && !a.player.isWaiting
    requires a.player.currentQuestionIndex + 1 < |a.questions|
    ensures var s := Submit(a, opt, 0).app;
            var t := CooldownElapsed(ReceiveAsWritten(s, InitQuiz(qs, cfg)).app).app;
            && t.questions == qs
            && t.player == s.player.(isWaiting := false)
            && t.player.currentQuestionIndex == a.player.currentQuestionIndex + 1
  {
    var s := Submit(a, opt, 0).app;
    assert s.pending == [Cooldown(s.player, false)];
  }

  /** The same race through a new start: as written, a pick, then home, the
      solo button and a start whose questions arrive before the timer fires, and
      the timer overwrites the new quiz's fresh player with the previous one's. */
  lemma StaleTimerOverwritesStart(a: App, opt: string, qs: seq<Question>, meta: EntryMeta)
    requires QuizInv(a) && a.step == Quiz && !a.player.isWaiting
    requires a.player.currentQuestionIndex + 1 < |a.questions|
    ensures var s := Submit(a, opt, 0).app;
            var c := ChooseSolo(HomeButton(s).app).app;
            var r := StartQuizAsWritten(c, Generated(qs), meta).app;
            var t := CooldownElapsed(r).app;
            && r.player == FreshPlayer && r.step == Quiz && r.questions == qs
            && t.player == s.player.(isWaiting := false)
            && t.player.currentQuestionIndex == a.player.currentQuestionIndex + 1
            && t.player != FreshPlayer
            && t.questions == qs
  {
    var s := Submit(a, opt, 0).app;
    assert s.pending == [Cooldown(s.player, false)];
  }

  /** With the timer cancelled by the start, the new quiz keeps its fresh
      player and the quiz invariant. */
  lemma CorrectedStartIgnoresStaleTimer(a: App, opt: string, qs: seq<Question>, meta: EntryMeta)
    requires QuizInv(a) && a.step == Quiz && !a.player.isWaiting
    requires a.player.currentQuestionIndex + 1 < |a.questions|
    ensures var s := Submit(a, opt, 0).app;
            var c := ChooseSolo(HomeButton(s).app).app;
            var t := CooldownElapsed(StartQuiz(c, Generated(qs), meta).app).app;
            t.player == FreshPlayer && QuizInv(t) && t.questions == qs
  {
    StartEstablishes(ChooseSolo(HomeButton(Submit(a, opt, 0).app).app).app, qs, meta);
  }

  /** With the timer cancelled by the replay, the same sequence leaves the fresh
      player in place and the quiz invariant holding. */
  lemma CorrectedReplayIgnoresStaleTimer(a: App, opt: string)
    requires QuizInv(a) && a.step == Quiz && !a.player.isWaiting
    requires a.player.currentQuestionIndex + 1 < |a.questions|
    requires |a.history| > 0
    ensures var s := Submit(a, opt, 0).app;
            var h := OpenHistory(HomeButton(s).app).app;
            var t := CooldownElapsed(ReplayHistory(h, 0).app).app;
            t.player == FreshPlayer && QuizInv(t) && t.questions == a.history[0].questions
  {
    var s := Submit(a, opt, 0).app;
    var h := OpenHistory(HomeButton(s).app).app;
    ReplayEstablishes(h, 0);
  }

  /** With the timer cancelled by `INIT_QUIZ`, a timer armed by the receiver's
      own last pick cannot reach the new quiz. */
  lemma CorrectedInitIgnoresStaleTimer(a: App, opt: string, qs: seq<Question>, cfg: QuizConfig)
    requires QuizInv(a) && a.step == Quiz && !a.player.isWaiting
    requires a.player.currentQuestionIndex + 1 < |a.questions|
    ensures var s := Submit(a, opt, 0).app;
            var t := CooldownElapsed(Receive(s, InitQuiz(qs, cfg)).app).app;
            t.player == FreshPlayer && QuizInv(t) && t.questions == qs
  {
    ReceiveInitEstablishes(Submit(a, opt, 0).app, qs, cfg);
  }
}

=== FILE: screens.dfy ===
/** Which events each screen of App.tsx offers, and the sign-in guard: no screen
    past sign-in is reachable without passing the login handler with the terms
    accepted. Most handlers (module App) do not check the step; the exceptions
    are the home button, the lobby's generate button and the history replay.
    The rendered screen decides which of the others a user can reach. */
module Screens {
  import opened Types
  import opened App
  import Sound
  import Balloon

  /** Whether event `e` can happen in state `a`: its button is on screen, or the
      asynchronous source it stands for exists. The relation offers slightly
      more than the screen: the home button on the mini-game step, where the
      game's full-screen layer covers the header, and the mini-game's finish
      for the whole game, though its button appears only once the countdown
      reaches zero. The sign-in lemmas hold over these extra runs as well. */
  predicate Enabled(a: App, e: Event): (r: bool)
    // the sign-in screen offers only the consent box, the login button and a
    // touch; everything else there comes from an asynchronous source
    ensures r && a.step == Auth ==>
      e.ToggleLegalEvent? || e.LoginEvent? || e.PointerDownEvent?
      || e.InboundEvent? || e.GuestChannelOpenEvent? || e.CooldownEvent? || e.MessageEvent?
    // a touch is possible on every screen
    ensures e.PointerDownEvent? ==> r
  {
    match e
    case ToggleLegalEvent => a.step == Auth
    case LoginEvent => a.step == Auth
    case HomeEvent => a.step != Auth && a.step != Home
    case SoloEvent => a.step == Home
    case MultiEvent(_, _) => a.step == Home
    case HistoryEvent => a.step == Home
    case InboundEvent => a.peer
    case GuestPeerOpenEvent => a.step == Lobby && !a.conn
    case GuestChannelOpenEvent => a.conn
    case GenerateEvent => a.step == Lobby && a.conn && a.roomId != ""
    case SelectTypeEvent(_) => a.step == Config
    case PasteEvent => a.step == Config
    case StartEvent(_, _) => a.step == Config || a.step == Paste
    case ReplayEvent(_) => a.step == History
    case AnswerEvent(_, _) => a.step == Quiz
    case CooldownEvent => a.pending != []
    case MessageEvent(_) => a.conn
    case MinigameEvent => a.step == Reward
    case MinigameDoneEvent => a.step == Minigame
    case PointerDownEvent => true
  }

  /** Every event of the run is enabled when it happens. */
  predicate EnabledRun(a: App, es: seq<Event>)
    decreases |es|
  {
    |es| == 0 || (Enabled(a, es[0]) && EnabledRun(Apply(a, es[0]).app, es[1..]))
  }

  /** Signed in, or still on the sign-in screen with no peer, no connection and no timer. */
  predicate SignInInv(a: App)
  {
    a.signedIn || (a.step == Auth && !a.peer && !a.conn && a.pending == [])
  }

  /** The first render is signed out on the sign-in screen. */
  lemma InitialSignedOut(saved: seq<SavedGame>)
    ensures SignInInv(Initial(saved)) && !Initial(saved).signedIn
  {
  }

  /** Only the login handler signs in, and only with the terms accepted. */
  lemma SignInNeedsConsent(a: App, e: Event)
    requires !a.signedIn && Apply(a, e).app.signedIn
    ensures e == LoginEvent && a.legalAccepted
  {
  }

  lemma EnabledKeepsSignIn(a: App, e: Event)
    requires SignInInv(a) && Enabled(a, e)
    ensures SignInInv(Apply(a, e).app)
  {
  }

  lemma {:induction false} EnabledRunKeepsSignIn(a: App, es: seq<Event>)
    requires SignInInv(a) && EnabledRun(a, es)
    ensures SignInInv(Run(a, es).app)
    decreases |es|
  {
    if |es| > 0 {
      EnabledKeepsSignIn(a, es[0]);
      EnabledRunKeepsSignIn(Apply(a, es[0]).app, es[1..]);
    }
  }

  /** The login guard: whatever the user does from the first render, every
      screen other than sign-in is reached only once signed in. */
  lemma LoginGuard(saved: seq<SavedGame>, es: seq<Event>)
    requires EnabledRun(Initial(saved), es)
    ensures Run(Initial(saved), es).app.step != Auth ==> Run(Initial(saved), es).app.signedIn
  {
    InitialSignedOut(saved);
    EnabledRunKeepsSignIn(Initial(saved), es);
  }

  /** No handler leads back to the sign-in screen. */
  lemma StaysPastSignIn(a: App, e: Event)
    requires a.step != Auth
    ensures Apply(a, e).app.step != Auth
  {
    match e
    case StartEvent(gen, meta) =>
      assert Apply(a, e) == StartQuiz(a, gen, meta);
    case AnswerEvent(opt, idx) =>
      assert Apply(a, e) == Submit(a, opt, idx);
    case CooldownEvent =>
      assert Apply(a, e) == CooldownElapsed(a);
    case MessageEvent(m) =>
      assert Apply(a, e) == Receive(a, m);
    case _ =>
  }

  /** The sign-in screen is never shown again once left, whatever happens. */
  lemma {:induction false} NoReturnToSignIn(a: App, es: seq<Event>)
    requires a.step != Auth
    ensures Run(a, es).app.step != Auth
    decreases |es|
  {
    if |es| > 0 {
      StaysPastSignIn(a, es[0]);
      NoReturnToSignIn(Apply(a, es[0]).app, es[1..]);
    }
  }

  /** The mini-game screen mounts and unmounts the balloon game: the sounds of
      entering it are the button's unlock followed by the game's mount, and the
      sounds of its finish are the game's unmount. */
  lemma MinigameSoundsAreTheGame(a: App, c: Sound.Controller)
    requires Sound.Valid(c)
    ensures Sound.Valid(Sound.Unlock(c))
    ensures Perform(c, OpenMinigame(a).effects) == Balloon.Mount(Sound.Unlock(c)).1
    ensures Perform(c, MinigameDone(a).effects) == Balloon.Unmount(c)
  {
    Sound.ApplyKeepsValid(c, Sound.UnlockOp);
    var es := OpenMinigame(a).effects;
    assert es[1..] == [PlaySound(Sound.BalloonBg)] && es[1..][1..] == [];
    var fs := MinigameDone(a).effects;
    assert fs[1..] == [];
  }
}

=== FILE: sound.dfy ===
/** The sound controller of SoundManager.tsx: one process-wide background
    track (`globalBgAudio` with `lastType`), the mute flag of the hook, and the
    persisted copy of that flag. Audio is abstract: a track is a record of its
    kind, looping and muted flags, whether it is paused, and its playback
    position. Starting playback is assumed to succeed. */
module Sound {
  import opened Types

  /** The keys of the source's sound table. */
  datatype SoundKind = Bg | BalloonBg | CorrectSfx | WrongSfx | PopSfx | WinSfx | TickSfx

  /** The two looping background kinds; every other kind is a one-shot effect. */
  predicate IsBackground(k: SoundKind)
  {
    k == Bg || k == BalloonBg
  }

  /** A background track. `serial` identifies the audio element: a new element
      gets the next serial number, so "the same track" means "the same serial". */
  datatype Track = Track(
    kind: SoundKind,
    serial: nat,
    loop: bool,
    muted: bool,
    paused: bool,
    position: nat)

  /** `bg` is `globalBgAudio`, `lastType` is `lastType`, `isMuted` is the hook's
      state, `stored` the persisted `quiz_muted` entry, `created` the number of
      background elements ever built, `started` the one-shot effects started. */
  datatype Controller = Controller(
    bg: Option<Track>,
    lastType: Option<SoundKind>,
    isMuted: bool,
    stored: Option<string>,
    created: nat,
    started: seq<SoundKind>)

  /** What the controller keeps true: the last type names the referenced track's
      kind, the referenced track is the newest one built, it loops, and its muted
      flag follows the hook's flag. */
  predicate Valid(c: Controller)
  {
    && (c.lastType.Some? ==> c.bg.Some? && c.bg.value.kind == c.lastType.value)
    && (c.bg.Some? ==>
          && IsBackground(c.bg.value.kind)
          && c.bg.value.serial + 1 == c.created
          && c.bg.value.loop
          && c.bg.value.muted == c.isMuted)
  }

  /** The state at page load: no track, muted exactly when the stored entry is "true". */
  function Init(stored: Option<string>): (c: Controller)
    ensures Valid(c)
    ensures c.bg.None? && c.lastType.None? && c.started == []
    ensures c.isMuted <==> stored == Some("true")
  {
    Controller(None, None, stored == Some("true"), stored, 0, [])
  }

  /** `playSound(k)`. */
  function Play(c: Controller, k: SoundKind): (r: Controller)
    // Same background kind already referenced: no new element, only a resume.
    ensures IsBackground(k) && c.bg.Some? && c.lastType == Some(k) ==>
      && r.bg.Some? && r.bg.value.serial == c.bg.value.serial
      && !r.bg.value.paused
      && r.bg.value == c.bg.value.(paused := false)
      && r.created == c.created && r.lastType == c.lastType
      && r.isMuted == c.isMuted && r.stored == c.stored && r.started == c.started
    // Otherwise the old element is dropped and a fresh looping one installed.
    ensures IsBackground(k) && !(c.bg.Some? && c.lastType == Some(k)) ==>
      && r.bg.Some? && r.bg.value.kind == k
      && r.bg.value.serial == c.created && r.created == c.created + 1
      && r.bg.value.loop && r.bg.value.muted == c.isMuted
      && !r.bg.value.paused && r.bg.value.position == 0
      && r.lastType == Some(k)
      && r.isMuted == c.isMuted && r.stored == c.stored && r.started == c.started
    // A one-shot effect starts iff not muted and never touches the track state.
    ensures !IsBackground(k) ==>
      && r.bg == c.bg && r.lastType == c.lastType && r.created == c.created
      && r.isMuted == c.isMuted && r.stored == c.stored
      && (if c.isMuted then r.started == c.started else r.started == c.started + [k])
  {
    if IsBackground(k) then
      if c.bg.Some? && c.lastType == Some(k) then
        if c.bg.value.paused then c.(bg := Some(c.bg.value.(paused := false)))
        else c
      else
        var track := Track(k, c.created, true, c.isMuted, false, 0);
        c.(bg := Some(track), lastType := Some(k), created := c.created + 1)
    else if !c.isMuted then
      c.(started := c.started + [k])
    else
      c
  }

  /** `stopBg()`: pause and rewind, forget the last type, keep the reference. */
  function Stop(c: Controller): (r: Controller)
    ensures c.bg.None? ==> r == c
    ensures c.bg.Some? ==>
      && r.bg.Some? && r.bg.value.serial == c.bg.value.serial
      && r.bg.value.kind == c.bg.value.kind
      && r.bg.value.paused && r.bg.value.position == 0
      && r.lastType.None?
      && r.created == c.created && r.isMuted == c.isMuted
      && r.stored == c.stored && r.started == c.started
  {
    if c.bg.Some? then
      c.(bg := Some(c.bg.value.(paused := true, position := 0)), lastType := None)
    else c
  }

  /** `toggleMute()` together with the effect that copies the flag onto the track. */
  function ToggleMute(c: Controller): (r: Controller)
    ensures r.isMuted == !c.isMuted
    ensures r.stored == Some(if r.isMuted then "true" else "false")
    ensures r.bg.Some? <==> c.bg.Some?
    ensures c.bg.Some? ==> r.bg.value == c.bg.value.(muted := r.isMuted)
    ensures r.lastType == c.lastType && r.created == c.created && r.started == c.started
  {
    var m := !c.isMuted;
    c.(isMuted := m,
       stored := Some(if m then "true" else "false"),
       bg := if c.bg.Some? then Some(c.bg.value.(muted := m)) else None)
  }

  /** The resume half of `unlockAudio()`; the silent clip it also plays is not modelled. */
  function Unlock(c: Controller): (r: Controller)
    ensures c.bg.Some? ==> r.bg == Some(c.bg.value.(paused := false))
    ensures c.bg.None? ==> r == c
    ensures r.lastType == c.lastType && r.created == c.created
    ensures r.isMuted == c.isMuted && r.started == c.started && r.stored == c.stored
  {
    if c.bg.Some? && c.bg.value.paused then c.(bg := Some(c.bg.value.(paused := false)))
    else c
  }

  /** Time passing: a playing track moves forward, a paused one stays put. */
  function Elapse(c: Controller, d: nat): (r: Controller)
    ensures c.bg.Some? && !c.bg.value.paused ==>
      r.bg == Some(c.bg.value.(position := c.bg.value.position + d))
    ensures c.bg.None? || c.bg.value.paused ==> r == c
  {
    if c.bg.Some? && !c.bg.value.paused then
      c.(bg := Some(c.bg.value.(position := c.bg.value.position + d)))
    else c
  }

  /** The operations a caller of the hook can perform. */
  datatype Op = PlayOp(kind: SoundKind) | StopOp | MuteOp | UnlockOp | ElapseOp(d: nat)

  function Apply(c: Controller, op: Op): Controller
  {
    match op
    case PlayOp(k) => Play(c, k)
    case StopOp => Stop(c)
    case MuteOp => ToggleMute(c)
    case UnlockOp => Unlock(c)
    case ElapseOp(d) => Elapse(c, d)
  }

  function Run(c: Controller, ops: seq<Op>): Controller
    decreases |ops|
  {
    if |ops| == 0 then c else Run(Apply(c, ops[0]), ops[1..])
  }

  /** Each single operation keeps the controller valid. */
  lemma ApplyKeepsValid(c: Controller, op: Op)
    requires Valid(c)
    ensures Valid(Apply(c, op))
  {
  }

  /** Any sequence of operations keeps the controller valid: at most one
      background track is referenced, and it is always the newest one built. */
  lemma {:induction false} RunKeepsValid(c: Controller, ops: seq<Op>)
    requires Valid(c)
    ensures Valid(Run(c, ops))
    decreases |ops|
  {
    if |ops| > 0 {
      ApplyKeepsValid(c, ops[0]);
      RunKeepsValid(Apply(c, ops[0]), ops[1..]);
    }
  }

  /** Only `Play` of a background kind builds tracks, and it builds at most one. */
  lemma {:induction false} RunBuildsAtMostOnePerPlay(c: Controller, ops: seq<Op>)
    ensures Run(c, ops).created <= c.created + |ops|
    ensures Run(c, ops).created >= c.created
    decreases |ops|
  {
    if |ops| > 0 {
      RunBuildsAtMostOnePerPlay(Apply(c, ops[0]), ops[1..]);
    }
  }

  /** After `stopBg`, the next background play of any kind builds a fresh track,
      even of the kind that was playing. */
  lemma PlayAfterStopBuildsFresh(c: Controller, k: SoundKind)
    requires IsBackground(k)
    ensures Play(Stop(c), k).created == c.created + 1
    ensures Play(Stop(c), k).bg.value.serial == c.created
    ensures !Play(Stop(c), k).bg.value.paused
  {
  }

  /** A reload reads back the flag the last toggle stored. */
  lemma MuteSurvivesReload(c: Controller)
    ensures Init(ToggleMute(c).stored).isMuted == ToggleMute(c).isMuted
  {
  }

  /** Toggling twice restores the flag, the stored entry aside. */
  lemma ToggleTwice(c: Controller)
    ensures ToggleMute(ToggleMute(c)).isMuted == c.isMuted
    ensures Valid(c) ==> ToggleMute(ToggleMute(c)).bg == c.bg
  {
  }
}

=== FILE: types.dfy ===
/** The records and closed enumerations of the quiz front-end (types.ts).
    Numbers of the source (`number`) are modelled as unbounded integers;
    `null` and optional fields become `Option`. */
module Types {

  /** The conventional Some/None wrapper, used for `null` and optional fields. */
  datatype Option<+T> = None | Some(value: T)

  /** The three question kinds; each carries a fixed wire string. */
  datatype QuestionType = MultipleChoice | TrueFalse | FillBlanks

  datatype Difficulty = Easy | Medium | Hard

  datatype Language = Ar | En | De

  /** A generated question; treated as an opaque immutable record. */
  datatype Question = Question(
    id: string,
    kind: QuestionType,
    prompt: string,
    options: seq<string>,
    correctAnswer: string)

  datatype QuizConfig = QuizConfig(
    count: int,
    difficulty: Difficulty,
    language: Language,
    allowedTypes: seq<QuestionType>)

  /** The transient feedback tag of a player; `None` stands for `null`. */
  datatype ActionStatus = Correct | Wrong | Thinking

  /** The progress record of one participant. `attempts` is carried but no
      transition of the application ever changes it. */
  datatype PlayerState = PlayerState(
    score: int,
    currentQuestionIndex: int,
    attempts: map<string, int>,
    isFinished: bool,
    isWaiting: bool,
    lastActionStatus: Option<ActionStatus>)

  /** One history entry. Every field is required except `bestScore`. */
  datatype SavedGame = SavedGame(
    id: string,
    date: string,
    title: string,
    questions: seq<Question>,
    config: QuizConfig,
    bestScore: Option<int>)

  /** The message exchanged between the two peers of a duel, as a tagged union
      with one typed payload per tag. `NextReady` is accepted by the receiver
      but never sent. */
  datatype MultiplayerMessage =
    | InitQuiz(questions: seq<Question>, config: QuizConfig)
    | Progress(state: PlayerState)
    | NextReady

  /** The all-zero player state every quiz attempt starts from. */
  const FreshPlayer: PlayerState :=
    PlayerState(0, 0, map[], false, false, None)

  /** The wire string of a question kind: one of the three enum values. */
  function TypeValue(t: QuestionType): (r: string)
    ensures r in {"multiple_choice", "true_false", "fill_blanks"}
  {
    match t
    case MultipleChoice => "multiple_choice"
    case TrueFalse => "true_false"
    case FillBlanks => "fill_blanks"
  }

  /** Reads a wire string back as a question kind; every other string is rejected. */
  function ParseType(s: string): (r: Option<QuestionType>)
    ensures r.Some? ==> TypeValue(r.value) == s
    ensures r.Some? <==> s in {"multiple_choice", "true_false", "fill_blanks"}
  {
    if s == "multiple_choice" then Some(MultipleChoice)
    else if s == "true_false" then Some(TrueFalse)
    else if s == "fill_blanks" then Some(FillBlanks)
    else None
  }

  /** Every kind survives the trip through its wire string, so distinct kinds
      have distinct strings. */
  lemma TypeValueRoundTrip(t: QuestionType)
    ensures ParseType(TypeValue(t)) == Some(t)
  {
  }

  function DifficultyName(d: Difficulty): string
  {
    match d
    case Easy => "easy"
    case Medium => "medium"
    case Hard => "hard"
  }

  function ParseDifficulty(s: string): (r: Option<Difficulty>)
    ensures r.Some? ==> DifficultyName(r.value) == s
    ensures r.Some? <==> s in {"easy", "medium", "hard"}
  {
    if s == "easy" then Some(Easy)
    else if s == "medium" then Some(Medium)
    else if s == "hard" then Some(Hard)
    else None
  }

  function LanguageCode(l: Language): string
  {
    match l
    case Ar => "ar"
    case En => "en"
    case De => "de"
  }

  function ParseLanguage(s: string): (r: Option<Language>)
    ensures r.Some? ==> LanguageCode(r.value) == s
    ensures r.Some? <==> s in {"ar", "en", "de"}
  {
    if s == "ar" then Some(Ar)
    else if s == "en" then Some(En)
    else if s == "de" then Some(De)
    else None
  }

  lemma DifficultyRoundTrip(d: Difficulty)
    ensures ParseDifficulty(DifficultyName(d)) == Some(d)
  {
  }

  lemma LanguageRoundTrip(l: Language)
    ensures ParseLanguage(LanguageCode(l)) == Some(l)
  {
  }

  /** The `type` field a message carries on the wire. */
  function MessageTag(m: MultiplayerMessage): (r: string)
    ensures r in {"INIT_QUIZ", "PROGRESS", "NEXT_READY"}
    ensures (r == "INIT_QUIZ") == m.InitQuiz?
    ensures (r == "PROGRESS") == m.Progress?
    ensures (r == "NEXT_READY") == m.NextReady?
  {
    match m
    case InitQuiz(_, _) => "INIT_QUIZ"
    case Progress(_) => "PROGRESS"
    case NextReady => "NEXT_READY"
  }
}
